=== FILE: README.md ===
# Go backend exercises, modelled in Dafny

This project is a Dafny model of the logic in a set of Go backend exercises. It covers:

- **Library catalogue** (task3). Books and members live in two maps, and IDs come from package-wide counters. Books are borrowed and returned under ordered error checks.
- **Integer-keyed task store and its HTTP handlers** (task4). Path IDs are parsed with `strconv.Atoi`. A partial update merges the non-empty fields of a patch into the stored task.
- **Two string routines** (task2):
  - a word-frequency counter over maximal runs of letters and digits;
  - a two-pointer palindrome check that skips everything except letters and digits.
- **Layered task service** (task7 and task8):
  - usecases that validate their input and then delegate to a repository, a password hasher and a token minter;
  - gin controllers that map the context role, the bound body and the usecase's answer to a status and a JSON body.
- **Stand-alone authentication server** (learning2). It has a bearer-token middleware and an in-memory user registry keyed by email.

The model follows the shape of each Go file:

- **Stateful code becomes classes.**
  - The library's maps and counters: `Library.Library` and `Library.Counters`.
  - The task store: `TaskStore.Store`.
  - The user registry: `AuthServer.Registry`.
  - Each method states its whole new state.
- **Loops become methods with invariants.**
  - `ReturnBook` and `ListAvailableBooks` in the library.
  - `frequency`: `WordFrequency.Frequency`.
  - `palindrome`: `Palindromes.Scan`.
  - The `/users` listing: `AuthServer.Registry.ListUsers`.
  - Each is proved against a specification function.
- **If-chains become functions.** This covers the usecases, the controllers and the middleware.
- **Collaborators become records of functions.** The Mongo repositories, bcrypt, the JWT library and `unicode` are modelled this way, so every property holds for any answer they give. A function cannot write through a pointer argument, so the repositories are assumed to leave the records they are passed unchanged, except where "## Left out" says otherwise.
- **Calls are logged.** Calls made to a collaborator are returned as a log, so "the repository is not called" is a statement about that log.
- **A request's result is its list of JSON writes.** A gin handler's result is the sequence of `ctx.JSON` writes it made (`Http.Handled`). The status a client receives is the first write's status (`Http.SentStatus`).
- **Panics are a flag.** A run-time panic, such as a nil error's `Error()` or an unchecked type assertion, sets a flag on the result.

## Model

| member | source | states |
|---|---|---|
| Library.FirstMatch | task3/services/library_service.go:93-98 | the index of the first borrowed entry with the book's ID, or the length when there is none; no earlier entry matches |
| Library.ShiftOut | task3/services/library_service.go:95 | the splice `append(s[:i], s[i+1:]...)` seen through a slice of the old length: entries after `i` move left, the last slot keeps its entry |
| Library.Borrow | task3/services/library_service.go:55-75 | errors in the order "book not found", "book is borrowed", "member not found", none of them changing anything; on success the book becomes "Borrowed" and the member keeps its ID and name and its list gains exactly that book at its end, with every other entry unchanged |
| Library.ReturnError | task3/services/library_service.go:77-91 | a return is accepted iff the book exists, is not "Available", and the member exists; whether that member holds the book is not checked |
| Library.ReturnAsWritten | task3/services/library_service.go:77-103 | as written: the book is written back "Available" and the error is `ReturnError`'s. The member keeps its ID and name. The member's stored list keeps its length because only the shared backing array changes: it reads `ShiftOut` at the first entry for the book, or is unchanged when there is none |
| Library.ReturnIntended | task3/services/library_service.go:77-103 | the corrected return: the same checks and book update, and the member is written back. If the member's list holds the book, it has one entry fewer, and one copy of the first matching entry has left its multiset. Otherwise the member is unchanged. The member's ID and name are kept, and the other members are untouched |
| Library.RemoveFirstMultiset | task3/services/library_service.go:93-98 | removing the first matching entry removes exactly one copy of it from the multiset of borrowed books |
| Library.RemoveFirst | task3/services/library_service.go:93-98 | the splice as intended: when the list holds the book, one entry fewer, and exactly one copy of the first matching entry leaves the multiset; otherwise the list is unchanged |
| Library.ReturnIntendedUndoesBorrow | task3/services/library_service.go:55-103 | for a member who held no entry for the book and a book stored under its own ID, borrowing and then returning it (corrected version) restores the member map, and restores the book map when the book was "Available" |
| Library.SoleBookSurvivesReturn | task3/services/library_service.go:93-102 | as written, a member who borrowed one book and returns it still lists that book |
| Library.Counters.constructor | task3/services/library_service.go:8 | both counters start at 0 |
| Library.Library.constructor | task3/services/library_service.go:24-29 | both maps start empty |
| Library.Library.AddBook | task3/services/library_service.go:31-35 | the book is stored under the counter's value before the call, with that ID; the key was unused; the counter goes up by one; members are untouched; validity (every ID below its counter) is kept, so IDs are never reused after removal |
| Library.Library.RemoveBook | task3/services/library_service.go:37-46 | "book not found" iff the ID is absent; the book map loses exactly that key (no change when absent); validity against the counters is kept, so no ID is reused |
| Library.Library.AddMember | task3/services/library_service.go:47-53 | returns the member counter's value before the call; the stored member has that ID, the name and no borrowed books; the counter goes up by one |
| Library.Library.BorrowBook | task3/services/library_service.go:55-75 | the new maps and the error are exactly `Borrow` of the old maps; validity against the counters is kept |
| Library.Library.ReturnBook | task3/services/library_service.go:77-103 | the loop's effect: the new maps and the error are exactly `ReturnAsWritten` of the old maps; validity against the counters is kept |
| Library.Library.ListAvailableBooks | task3/services/library_service.go:105-116 | every stored book whose status is "Available", each exactly once, in some order |
| Library.Library.ListBorrowedBooks | task3/services/library_service.go:117-125 | the stored list of a known member, the empty list (nil) for an unknown one |
| TaskStore.Store.constructor | task4/data/task_service.go:8-12 | an empty map and a zero counter |
| TaskStore.Store.GetAllTasks | task4/data/task_service.go:14-18 | the whole current map |
| TaskStore.Store.GetTask | task4/data/task_service.go:20-25 | `found` iff the ID is a key; the stored task, or the zero task when absent |
| TaskStore.Store.UpdateTask | task4/data/task_service.go:26-30 | an upsert: the key is written whether present or not, and everything else is unchanged; validity survives exactly when the ID has already been handed out |
| TaskStore.Store.DeleteTask | task4/data/task_service.go:32-40 | true iff the key was present; the map loses exactly that key; the counter is unchanged |
| TaskStore.Store.CreateTask | task4/data/task_service.go:42-49 | the counter is incremented first, so the first ID is 1; the task is stored under the new counter value with that ID, which was not a key before |
| TaskStore.CreationsNeverReuse | task4/data/task_service.go:42-49 | two creations with a deletion between them give strictly increasing IDs; the second task is stored under its own ID |
| Decimal.Atoi | task4/controllers/task_controller.go:21 | a string parses iff it is an optional sign followed by at least one digit, all of them digits, with a signed value in the 64-bit range; the result is that signed value; the empty string is refused |
| Decimal.AtoiItoa | task4/controllers/task_controller.go:21 | every 64-bit integer's decimal form parses back to that integer |
| Decimal.AtoiLenient | task4/controllers/task_controller.go:21 | "+7" and "007" parse to 7 and "-0" to 0; " 7", "7a" and "-" are refused |
| Decimal.AtoiRange | task4/controllers/task_controller.go:21 | a digit string above the 64-bit range is refused |
| TaskHandlers.Merge | task4/controllers/task_controller.go:54-62 | title, description and status each come from the patch iff the patch's value is non-empty; ID and due date always come from the stored task |
| TaskHandlers.MergeIdempotent | task4/controllers/task_controller.go:54-64 | applying the same patch twice equals applying it once |
| TaskHandlers.MergeEmptyPatch | task4/controllers/task_controller.go:54-62 | a patch with all three text fields empty leaves the task unchanged |
| TaskHandlers.Overlay | task4/controllers/task_controller.go:54-62 | the combined patch of two updates: a field is empty iff it is empty in both |
| TaskHandlers.MergeComposes | task4/controllers/task_controller.go:54-64 | two successive merges equal one merge with the overlaid patch |
| TaskHandlers.GetTasks | task4/controllers/task_controller.go:14-17 | 200 with the store's whole map |
| TaskHandlers.GetTaskByID | task4/controllers/task_controller.go:19-32 | 400 "Invalid task ID" for an unparsable ID; 200 with the stored task; 404 "Task not found" |
| TaskHandlers.UpdateTask | task4/controllers/task_controller.go:34-66 | 400 for a bad ID, then 400 for a bad body, then 404 for an absent ID, each without a write; otherwise the merged task is stored and returned with 200; the counter never moves and validity is kept |
| TaskHandlers.DeleteTask | task4/controllers/task_controller.go:68-81 | 400 for a bad ID with no change; otherwise the key is removed, with 200 "Task removed" when present and 404 (under "message") when absent |
| TaskHandlers.CreateTask | task4/controllers/task_controller.go:83-95 | 400 for a bad body with no change; otherwise stored under the next ID, and 201 answers with the store's ID and the current time as due date, while the stored copy keeps the client's due date |
| TaskHandlers.DeleteTwice | task4/controllers/task_controller.go:68-81 | deleting the same ID twice: the first is 200 iff the ID was stored, and the second is always 404 |
| WordFrequency.RunEnd | task2.go/main.go:17-21 | where the run opened at `start` ends: every character before it is a letter or digit, and the one at it is not (or the range ends there) |
| WordFrequency.RunEndUnique | task2.go/main.go:17-27 | the end of a run is determined: the first separator after its start, or the end of the range |
| WordFrequency.RunsIn | task2.go/main.go:16-33 | the maximal alphanumeric runs of a stretch of the string, in order; none is empty |
| WordFrequency.LowerWord | task2.go/main.go:24 | a run lower-cased character by character |
| WordFrequency.LowerAll | task2.go/main.go:31 | every run lower-cased, positionally |
| WordFrequency.Bump | task2.go/main.go:25 | `wordmap[w]++`: the key set gains `w`, whose count goes up by one from 0 or its old value |
| WordFrequency.TalliesBump | task2.go/main.go:25 | counting one more word keeps the map equal to the multiset of words seen |
| WordFrequency.CountTallies | task2.go/main.go:25 | bumping the map once per word, in order, leaves every word mapped to its number of occurrences and no other key |
| WordFrequency.CountOneMore | task2.go/main.go:23-25 | counting the lowered form of one more run is counting the runs seen so far followed by that run |
| WordFrequency.Frequency | task2.go/main.go:11-35 | the loop's result is one `wordmap[w]++` per lower-cased maximal run, in order (the trailing run included): its keys are exactly those words, each mapped to how many times it occurs |
| WordFrequency.RunsSplit | task2.go/main.go:16-29 | the runs of a concatenation split at a separator are the runs of both parts |
| WordFrequency.SeparatorClosesRun | task2.go/main.go:22-27 | a separator after a run adds exactly that run |
| WordFrequency.SeparatorAddsNoRun | task2.go/main.go:22-28 | a separator outside a run adds no run |
| WordFrequency.WholeRun | task2.go/main.go:17-21 | a stretch made only of letters and digits is a single run |
| WordFrequency.TrailingRun | task2.go/main.go:30-33 | a run reaching the end of the string is counted |
| WordFrequency.RunStarts | task2.go/main.go:17-21 | where the runs start (`start = i` when a run opens): strictly increasing positions inside the range |
| WordFrequency.RunStartsCount | task2.go/main.go:16-33 | one start per listed run |
| WordFrequency.ListedRunAt | task2.go/main.go:16-33 | the `k`-th listed run is `s[start..end]` for the `k`-th start and the end of its run, and it is a maximal run (bounded by separators or the ends) |
| WordFrequency.MaximalInWider | task2.go/main.go:16-29 | a maximal run found after a separator is a maximal run of the wider range |
| WordFrequency.MaximalRunsAreListed | task2.go/main.go:16-33 | every maximal run starts at a listed start and ends where that run ends, so it is listed |
| WordFrequency.RunsCountMaximalRuns | task2.go/main.go:14-33 | each maximal run is listed exactly once: there are as many runs, and as many words to count, as maximal runs |
| WordFrequency.KeysAreMaximalRuns | task2.go/main.go:16-33 | every key of the result is the lower-casing of some maximal alphanumeric run |
| WordFrequency.NoRunsWithoutAlnum | task2.go/main.go:14-30 | there are no runs iff no character is a letter or digit |
| WordFrequency.NoWordsNoCounts | task2.go/main.go:14-34 | an empty or separator-only string gives the empty map |
| WordFrequency.LoweredWordsAgree | task2.go/main.go:24 | runs over the same positions of two strings that agree after lower-casing lower to the same word |
| WordFrequency.LoweredRunsAgree | task2.go/main.go:16-31 | over any stretch, two strings that agree on classification and lower-casing have the same lowered runs |
| WordFrequency.CaseInsensitive | task2.go/main.go:24-31 | strings that agree after lower-casing (and in classification) give the same words, so runs differing only in case share one key |
| Palindromes.Letters | task2.go/main.go:43-48 | the letters and digits of a stretch of the word, in order, never more than the stretch holds |
| Palindromes.Filter | task2.go/main.go:43-48 | the letters and digits of the whole word in order, never longer than the word |
| Palindromes.LettersSplit | task2.go/main.go:42-54 | cutting a stretch in two cuts its letters and digits at the same place |
| Palindromes.Reverse | task2.go/main.go:49 | position `k` holds the element at `len-1-k` |
| Palindromes.SkipSeparatorsLeft | task2.go/main.go:43-45 | the left skipping loop: stops at a letter or digit or at the right pointer, keeps the mirrored halves, and panics only when it reads past the end |
| Palindromes.SkipSeparatorsRight | task2.go/main.go:46-48 | the right skipping loop: stops at a letter or digit or at the left pointer, keeps the mirrored halves, and panics at once when the right pointer starts past the end |
| Palindromes.MeetAdjacent | task2.go/main.go:42-55 | pointers that met or are adjacent, with mirrored halves behind them, mean the letters and digits form a palindrome |
| Palindromes.MeetCrossed | task2.go/main.go:42-55 | pointers that crossed over one byte, with mirrored halves behind them, mean the letters and digits form a palindrome |
| Palindromes.CompareEnds | task2.go/main.go:49-53 | the comparison: the answer is whether the two bytes are equal; differing letters rule out a palindrome, and matching ones keep the mirrored halves once both pointers step inward |
| Palindromes.SkipLeft | task2.go/main.go:43-45 | skipping a separator on the left keeps the two pointers' mirrored segment |
| Palindromes.SkipRight | task2.go/main.go:46-48 | skipping a separator on the right keeps the mirrored segment |
| Palindromes.MatchStep | task2.go/main.go:49-53 | equal letters at both pointers can be peeled off |
| Palindromes.MismatchIsNotPalindrome | task2.go/main.go:49-50 | unequal letters at both pointers mean the filtered word is not a palindrome |
| Palindromes.Scan | task2.go/main.go:42-55 | the nested loops: when the right pointer starts inside the word no index leaves range, and the answer is whether the letters and digits before it read the same backwards; when it starts past the end (two or more bytes) the walk panics; with fewer than two bytes the answer is true |
| Palindromes.PalindromeAsWritten | task2.go/main.go:37-56 | as written: when lower-casing does not shorten the word, the answer judges only the first `len(word)` lowered bytes, which is correct when the length is kept; a panic whenever lowering shortens a word of two or more bytes; true for any word of at most one byte |
| Palindromes.Palindrome | task2.go/main.go:37-56 | the corrected check: true iff the lowered letters and digits equal their reverse, with no panic |
| Palindromes.ShortWordsArePalindromes | task2.go/main.go:38-55 | the letters and digits of the empty word or of a one-byte word read the same backwards (the answers themselves are in `Scan` and `PalindromeAsWritten`) |
| Palindromes.DottedCapitalIPanics | task2.go/main.go:39-46 | "İ" (C4 B0), which lower-cases to the single byte "i", makes the as-written check panic |
| Palindromes.AlphaWithStrokeMisjudged | task2.go/main.go:39-42 | "Ⱥa" lower-cases to four bytes; as written only the first three are judged, and the answer is true |
| Palindromes.AlphaWithStrokeIsNotPalindrome | task2.go/main.go:37-56 | the corrected check reads all of "ⱥa" and answers false |
| Palindromes.DottedCapitalIIsPalindrome | task2.go/main.go:37-56 | the corrected check answers true for "İ" |
| TaskUsecases.CreateTask | task8/usecases/taskusecase.go:16-22 | the repository is skipped iff the description, status or title is empty, and then the answer is "incomplete information"; otherwise it is called once with the task and owner, and its answer is returned unchanged; task7's copy (task7/usecases/taskusecase.go:17-23) does the same |
| TaskUsecases.GetTask | task8/usecases/taskusecase.go:24-26 | one repository call with the same ID; its answer unchanged; task7's copy (task7/usecases/taskusecase.go:25-27) does the same |
| TaskUsecases.GetTasks | task8/usecases/taskusecase.go:28-30 | one repository call with the same owner; its answer unchanged; task7's copy (task7/usecases/taskusecase.go:29-31) does the same |
| TaskUsecases.UpdateTask | task8/usecases/taskusecase.go:32-34 | one repository call with the ID and task and no caller identity; its error unchanged; task7's copy (task7/usecases/taskusecase.go:33-35) does the same |
| TaskUsecases.RemoveTask | task8/usecases/taskusecase.go:36-38 | one repository call with only the ID; its error unchanged; task7's copy (task7/usecases/taskusecase.go:37-39) does the same |
| TaskUsecases.RepositorySeesOnlyCompleteTasks | task8/usecases/taskusecase.go:16-22 | no incomplete task reaches the repository, and success implies a complete task |
| TaskUsecases.CompleteTaskIsCreated | task8/usecases/taskusecase_test.go:14-30 | the test's complete task with owner "userID" succeeds with exactly one repository call |
| UserUsecases.Register | task8/usecases/userusecase.go:17-33 | "incomplete information" with no call for an empty email or role; a hashing error with no repository call; otherwise the repository receives the user with the hashed password, and its answer is returned; task7's copy (task7/usecases/userusecase.go:18-37) does the same |
| UserUsecases.Login8 | task8/usecases/userusecase.go:35-47 | a repository error gives the error with no token minted; otherwise the token is minted from the request's ID and email and the repository's role, and a minting error is returned |
| UserUsecases.Login7 | task7/usecases/userusecase.go:39-55 | a repository error gives the error with no token minted; otherwise the token is minted from the request's ID, email and role |
| UserUsecases.LoginIntended | task8/usecases/userusecase.go:35-47 | corrected login: the token is minted from the stored account's ID, email and role |
| UserUsecases.GetUser | task8/usecases/userusecase.go:49-57 | one repository call with the email; its user or error unchanged; task7's copy (task7/usecases/userusecase.go:57-67) does the same |
| UserUsecases.GetUsers | task8/usecases/userusecase.go:59-66 | one repository call; its list or error unchanged; task7's copy (task7/usecases/userusecase.go:69-79) does the same |
| UserUsecases.Service8 | task8/usecases/userusecase.go:9-15 | the usecase task8's controllers hold: its register and login answer as `Register` and `Login8` |
| UserUsecases.Service7 | task7/usecases/userusecase.go:10-16 | the usecase task7's controllers hold: register and login answer as `Register` and `Login7` |
| UserUsecases.RepositoryNeverSeesPlaintext | task8/usecases/userusecase.go:22-27 | whatever the repository receives carries the hash of the sent password and nothing else changed; it receives something iff the fields are present and hashing succeeded |
| UserUsecases.FailedLoginMintsNothing | task8/usecases/userusecase.go:37-40 | after a repository error neither version mints a token, and both return that error |
| UserUsecases.Login8RoleFromStore | task8/usecases/userusecase.go:37-41 | task8's answer does not depend on the role in the request; the minted role is the stored one |
| UserUsecases.Login7TrustsClaimedRole | task7/usecases/userusecase.go:47 | task7: a stored "user" who sends role "admin" is minted an "admin" token |
| UserUsecases.LoginTokenIdFromRequest | task8/usecases/userusecase.go:41 | both versions mint the request's ID, which is the zero ObjectID when the client sends none, instead of the stored account's |
| UserUsecases.LoginIntendedUsesStoredAccount | task8/usecases/userusecase.go:35-47 | corrected login: requests matching the same account get the same answer, and the token carries that account's ID, email and role |
| UserControllers.Register8 | task8/delivery/controllers/usercontroller.go:19-41 | 400 when binding fails; 400 "incomplete information" with no usecase call for an empty email or role; 500 with the usecase's error; 201 "registered successfully" |
| UserControllers.Login8 | task8/delivery/controllers/usercontroller.go:43-64 | 400 when binding fails or the email is empty, without a usecase call; 401 with the error and the empty token; a panic for an empty token without an error; 200 with the token |
| UserControllers.Register7 | task7/delivery/controllers/usercontroller.go:18-36 | no field checks; 400 when binding fails; 500 with the usecase's error; 201 with the user as the usecase left it |
| UserControllers.Login7 | task7/delivery/controllers/usercontroller.go:38-55 | 400 when binding fails; 401 with the error; a panic for an empty token without an error; 200 with the token |
| UserControllers.GetUser | task8/delivery/controllers/usercontroller.go:66-85 | no usecase call iff the context role is not the string "admin", and then 403 "admin-only" echoing the role; otherwise 400 with the error or 200 with the user; task7's copy (task7/delivery/controllers/usercontroller.go:57-76) does the same |
| UserControllers.ListingReply | task8/delivery/controllers/usercontroller.go:94-101 | 400 iff the usecase failed; otherwise 200 with its list |
| UserControllers.GetUsersAsWritten | task8/delivery/controllers/usercontroller.go:87-103 | as written: the usecase is always called; an admin gets its answer; anyone else gets a 403 write followed by that answer; task7's copy (task7/delivery/controllers/usercontroller.go:78-94) does the same |
| UserControllers.GetUsers | task8/delivery/controllers/usercontroller.go:87-103 | corrected: no usecase call iff not an admin, and then just 403 "admin-only" |
| UserControllers.NonAdminReceivesUserList | task8/delivery/controllers/usercontroller.go:88-101 | as written: a caller who is not an admin is sent status 403, yet the body also holds the full user list |
| UserControllers.GetUsersOnlyForAdmins | task8/delivery/controllers/usercontroller.go:88-92 | corrected: only admins reach the usecase, and for them nothing changes |
| UserControllers.AdminGateRefuses | task8/delivery/controllers/usercontroller.go:68-73 | a missing role, "Admin", "user" and a non-string value are all refused; "admin" passes |
| UserControllers.WrongCredentialsAre401 | task8/delivery/controllers/usercontroller.go:56-61 | end to end with the task8 usecase: a repository refusal carrying "invalid email or password" gives 401 with that message and an empty token, and no token is minted |
| UserControllers.RightCredentialsAre200 | task8/delivery/controllers/usercontroller.go:56-63 | end to end: right credentials for a stored "user" give 200 with the minted token |
| UserControllers.Register7EmptyRoleIs500 | task7/delivery/controllers/usercontroller.go:27-31 | end to end with the task7 usecase: an empty role is refused in the usecase and reported as 500, with nothing hashed or stored |
| TaskController.CreateTask | task7/delivery/controllers/taskcontroller.go:19-52 | 403 "user-only" unless the role is the string "user"; then 400 for a bad body, 400 "user id not found", 500 for a non-string ID, each without a repository call; otherwise the usecase's calls, with 500 on its error and 201 with the task as filled in |
| TaskController.GetTask | task7/delivery/controllers/taskcontroller.go:53-68 | the gate; then one repository call, with 400 on error and 200 with the task |
| TaskController.GetTasks | task7/delivery/controllers/taskcontroller.go:69-89 | the gate; 404 when `user_id` is absent; a panic when it is not a string; otherwise the owner's tasks with 200 or 400 |
| TaskController.UpdateTask | task7/delivery/controllers/taskcontroller.go:90-114 | the gate; 400 for a bad body; otherwise the repository receives only the path ID and the bound task, with 400 on error and 200 echoing the task |
| TaskController.RemoveTask | task7/delivery/controllers/taskcontroller.go:115-131 | the gate; the repository receives only the path ID, with 400 on error and 200 "task removed" |
| TaskController.OnlyUsersReachTasks | task7/delivery/controllers/taskcontroller.go:21-25 | for any role other than the string "user", all five handlers answer 403 "user-only" and nothing reaches the repository |
| TaskController.AdminIsNotAUser | task7/delivery/controllers/taskcontroller.go:22 | an admin is refused by the task gate |
| TaskController.IncompleteTaskIsServerError | task7/delivery/controllers/taskcontroller.go:43-48 | a task missing a required field is answered 500 "incomplete information" with no repository call |
| AuthServer.SplitShape | learning2/main.go:97 | `strings.Split` on one character: one more piece than there are separators, and no piece holds the separator |
| AuthServer.JoinSplit | learning2/main.go:97 | joining the pieces with the separator gives back the header |
| AuthServer.SplitJoin | learning2/main.go:97 | splitting a join of separator-free pieces gives back the pieces |
| AuthServer.SplitPiece | learning2/main.go:97 | a separator-free piece followed by the separator splits off as the first piece |
| AuthServer.Lower | learning2/main.go:98 | lower-casing character by character, length kept |
| AuthServer.Authorize | learning2/main.go:88-128 | 401 "Authorization header is required" for an empty header; 401 "Invalid authorization header" unless there are exactly two space-separated pieces and the first is "bearer" in any case; admitted iff the token decodes with an HMAC algorithm, verifies and has map claims, and then the context gets the `user_id` and `email` claims; otherwise a header in bearer form gets 401 "Invalid JWT" when the token does not decode, is not HMAC-signed or fails verification, and 401 "Invalid token claims" when it verifies but its claims are not a map |
| AuthServer.BearerFormExactly | learning2/main.go:97-102 | scheme, one space and a space-free token is in bearer form iff the scheme lower-cases to "bearer" |
| AuthServer.SchemeSpellings | learning2/main.go:98 | "Bearer", "BEARER" and "bEaReR" lower-case to "bearer"; "Basic" and "Bearer:" do not |
| AuthServer.DoubledSpaceRefused | learning2/main.go:97-102 | "Bearer  t" splits into three pieces and is refused as an invalid header |
| AuthServer.NoSpaceRefused | learning2/main.go:97-102 | a header without a space is refused |
| AuthServer.AdmissionCarriesClaims | learning2/main.go:117-126 | an admitted request carries exactly the token's `user_id` and `email`, and no role |
| AuthServer.NonHmacRefused | learning2/main.go:104-115 | a token in a bearer-form header that does not decode, whose algorithm is not HMAC, or that fails verification is refused as "Invalid JWT" |
| AuthServer.TokenClaims | learning2/main.go:58-61 | a login token's claims are exactly `user_id` and `email` of the stored user |
| AuthServer.Registry.constructor | learning2/main.go:14 | the registry starts empty |
| AuthServer.Registry.Register | learning2/main.go:20-35 | 400 when binding fails; 500 when hashing fails, with no change; otherwise the user with the hashed password is filed under its email, overwriting any earlier account, with 200; accounts stay filed under their own email |
| AuthServer.Registry.Login | learning2/main.go:37-71 | 400 when binding fails; the one 401 "invalid email or password" iff the email is unknown or the password does not match; otherwise 500 when signing fails, or 200 with the token signed over the stored user's claims |
| AuthServer.Registry.ListUsers | learning2/main.go:78-81 | one entry per stored account, `len(users)` in all, each the account filed under its email, every account present |
| AuthServer.Registry.Users | learning2/main.go:77-83 | the middleware's 401, or 200 with every stored account |
| AuthServer.SameRefusal | learning2/main.go:45-56 | an unknown email and a wrong password get the identical answer |
| AuthServer.RegisterThenLogin | learning2/main.go:20-71 | a user who registers and then logs in with the same password gets 200, given that the hash check accepts a password against its own hash and signing succeeds |
| AuthServer.RegisterTwice | learning2/main.go:26-32 | registering an email twice leaves one account holding the second password's hash, and the map grows by at most one |

## Left out

- Concurrency: the mutex around task4's store is not modelled; operations run one at a time.
- Clocks: `time.Now()` in task4's `CreateTask` becomes the parameter `now`.
- Writes through pointer arguments: the repositories are records of functions and cannot write through the pointers they receive. The models of `Login` (task7/repositories/userrepository.go:41, task8/repositories/userrepository.go:48) and task7's `UpdateTask` (task7/repositories/taskrepository.go:91) therefore hold only for repositories that leave `*user` and `*updatedtask` unchanged. The real ones do: `Login` decodes into a separate local `u` (task8/repositories/userrepository.go:50-51), and `UpdateTask` only reads the task. The token-ID finding and the echo of the updated task rely on this. The writes the real repositories do make are modelled by returning the record as the caller then sees it. These are the inserted ID in `Register`, and the inserted ID and owner in task7's `CreateTask` (task7/repositories/taskrepository.go:49-50).
- The Mongo repositories of task7 and task8 are abstract records of functions, and the models hold for any answers they give. Two details of the real repositories are therefore not modelled:
  - task7's `RemoveTask` swallows delete errors (task7/repositories/taskrepository.go:117-118);
  - task8's repository hashes the already-hashed password again (task8/repositories/userrepository.go:26).
- The repository's `Login` is modelled as yielding the stored record it matched. task7's returns only an error, and task8's returns only that record's role; the models read nothing else from it.
- bcrypt, the JWT library, `infrastructure.Hash`, `infrastructure.NewToken` and `unicode` classification are parameters. Nothing is proved about hashing or HS256.
- `jwt.Parse` is reduced to whether the token decodes, whether its algorithm is HMAC, whether it verifies, and its claims. A claim missing from the map is set in the context as nil (`None`).
- Request binding (`ShouldBindJSON`/`BindJSON`) is a parameter: the bound record or the decoder's error text. JSON decoding and any binding tags are not modelled.
- A `gin.H` body is modelled with its fields in source order. gin serialises map keys sorted, and that ordering is not modelled.
- A panic is a flag on the result. gin's recovery middleware, which then answers 500, is not modelled.
- Pointers: a `*User` or `*Task` that a usecase or repository fills in is modelled by returning the record as the caller sees it afterwards. The registry's map of pointers and the live map returned by `GetAllTasks` are values here.
- Record types:
  - learning2's `User` type is not part of this model; `AuthServer.User` has the three fields main.go reads.
  - task3's and task4's model records are not part of this model either; their fields are taken from the service code.
- Console I/O and process start-up are not modelled: task2's and task3's `main`, task3's controller, the routers, and env and database set-up.
- AuthServer.Lower: lower-cases ASCII letters only. `strings.ToLower` is Unicode-wide, but no non-ASCII character lower-cases to a letter of "bearer", so the header check is unaffected.
- Decimal.Atoi: does not distinguish a syntax error from a range error. Both are `None`, because the handlers treat every parse error alike.
- WordFrequency.Frequency: works on characters (runes). The sum of all counts is not stated as a sum over the map. Instead, `Tallies` makes each count the multiplicity of its word, and `RunsCountMaximalRuns` makes the multiset of words exactly as large as the set of maximal runs.
- Palindromes.Scan: the byte classification `unicode.IsDigit(rune(b)) || unicode.IsLetter(rune(b))` is the parameter `isAlnumByte`, and `strings.ToLower` on bytes is the parameter `toLower`.
- Library.Library.ListAvailableBooks: Go's random map order is modelled as an arbitrary choice of the next key. The ghost `ids` output names the key of each listed book.

## Findings

| source | as written | input that shows it | evidently intended | confidence | as-written member | corrected member |
|---|---|---|---|---|---|---|
| task3/services/library_service.go:93-102 | `ReturnBook` splices a local copy of the member's list and never writes the member back. The stored slice shares the backing array and keeps its length. | A member borrows one book and returns it. The book is "Available" again, yet the member still lists it. | Remove the first entry for the book and store the member again. | not executed | Library.SoleBookSurvivesReturn | Library.ReturnIntended |
| task2.go/main.go:39-40 | `j` is taken from `len(word)` before `strings.ToLower`, which can shorten the string. | "İ" (bytes C4 B0) lower-cases to "i". The walk then reads byte 1 of a one-byte string and panics. | Take `j` from the lowered word. | not executed | Palindromes.DottedCapitalIPanics | Palindromes.Palindrome |
| task2.go/main.go:39-42 | `j` is taken from `len(word)` before `strings.ToLower`, which can also lengthen the string. The walk then judges only the first `len(word)` lowered bytes. | "Ⱥa" (bytes C8 BA 61) lower-cases to "ⱥa" (E2 B1 A5 61). Only E2 B1 A5 is judged, which holds the single letter E2, so the answer is true although "ⱥa" is not a palindrome. | Take `j` from the lowered word. | not executed | Palindromes.AlphaWithStrokeMisjudged | Palindromes.AlphaWithStrokeIsNotPalindrome |
| task7/usecases/userusecase.go:47 | The token's role is the role the client put in the login request. | A stored "user" logs in with `"role": "admin"` and the right password, and is minted an admin token. | Use the stored account's role, as task8 does. | not executed | UserUsecases.Login7TrustsClaimedRole | UserUsecases.LoginIntended |
| task8/usecases/userusecase.go:41 | The token's user ID is the `_id` from the login request, in task8 and in task7 (task7/usecases/userusecase.go:47). | A login without `_id` gets a token for the zero ObjectID, whatever the stored account's ID. | Use the stored account's ID. | not executed | UserUsecases.LoginTokenIdFromRequest | UserUsecases.LoginIntended |
| task8/delivery/controllers/usercontroller.go:90-92 | `GetUsers` has no `return` after its 403 write. The same gap is in task7/delivery/controllers/usercontroller.go:81-83. | A request whose role is "user" is sent status 403, and the full user list follows in the body. | Return after the 403, as `GetUser` does. | not executed | UserControllers.NonAdminReceivesUserList | UserControllers.GetUsers |

=== FILE: auth_server.dfy ===
/** The stand-alone authentication server (learning2): an in-memory user registry keyed by email, a login
    route that signs a JWT with the stored user's ID and email, and a middleware that admits requests
    carrying `Authorization: Bearer <token>` with a valid HMAC-signed token. bcrypt and the JWT library
    are parameters. */
module AuthServer {
  import opened Outcomes
  import opened Http
  import Seqs

  /** A registered account, as the handlers read it. */
  datatype User = User(id: string, email: string, password: string)

  /** What the `/users` route serialises. */
  datatype Listing = UserList(users: seq<User>)

  type Reply = Response<Listing>

  function Unauthorized(message: string): (r: Reply)
    ensures r.status == StatusUnauthorized
  {
    Response(StatusUnauthorized, ErrorBody(message))
  }

  // ---------------------------------------------------------------- the bearer-header gate

  /** `strings.Split(s, sep)` for a one-character separator: the pieces between separators, so one more
      piece than there are separators, empty pieces included. */
  function Split(s: string, sep: char): (parts: seq<string>)
    ensures |parts| >= 1
  {
    if s == [] then [""]
    else
      var rest := Split(s[1..], sep);
      if s[0] == sep then [""] + rest
      else [[s[0]] + rest[0]] + rest[1..]
  }

  /** There is one more piece than there are separators, and no piece holds the separator. */
  lemma {:induction false} SplitShape(s: string, sep: char)
    ensures |Split(s, sep)| == multiset(s)[sep] + 1
    ensures forall i :: 0 <= i < |Split(s, sep)| ==> sep !in Split(s, sep)[i]
  {
    if s != [] {
      SplitShape(s[1..], sep);
      assert s == [s[0]] + s[1..];
    }
  }

  /** `strings.Join(parts, sep)`. */
  function Join(parts: seq<string>, sep: char): string
    requires |parts| >= 1
  {
    if |parts| == 1 then parts[0] else parts[0] + [sep] + Join(parts[1..], sep)
  }

  /** Splitting loses nothing: joining the pieces back gives the header. */
  lemma {:induction false} JoinSplit(s: string, sep: char)
    ensures Join(Split(s, sep), sep) == s
  {
    if s != [] {
      var rest := Split(s[1..], sep);
      JoinSplit(s[1..], sep);
      if s[0] == sep {
        JoinEmptyFirst(rest, sep);
      } else {
        JoinGrowFirst(s[0], rest, sep);
      }
      assert [s[0]] + s[1..] == s;
    }
  }

  /** A leading empty piece contributes just its separator. */
  lemma JoinEmptyFirst(parts: seq<string>, sep: char)
    requires |parts| >= 1
    ensures Join([""] + parts, sep) == [sep] + Join(parts, sep)
  {
    assert ([""] + parts)[1..] == parts;
  }

  /** A character put in front of the first piece ends up in front of the join. */
  lemma JoinGrowFirst(c: char, parts: seq<string>, sep: char)
    requires |parts| >= 1
    ensures Join([[c] + parts[0]] + parts[1..], sep) == [c] + Join(parts, sep)
  {
    var grown := [[c] + parts[0]] + parts[1..];
    assert grown[1..] == parts[1..];
    if |parts| > 1 {
      Seqs.AppendAssoc([c], parts[0], [sep] + Join(parts[1..], sep));
      Seqs.AppendAssoc([c] + parts[0], [sep], Join(parts[1..], sep));
      Seqs.AppendAssoc(parts[0], [sep], Join(parts[1..], sep));
    }
  }

  /** Splitting the pieces of a join recovers them, as long as no piece holds the separator. */
  lemma {:induction false} SplitJoin(parts: seq<string>, sep: char)
    requires |parts| >= 1
    requires forall i :: 0 <= i < |parts| ==> sep !in parts[i]
    ensures Split(Join(parts, sep), sep) == parts
  {
    if |parts| == 1 {
      SplitPiece(parts[0], [], sep);
    } else {
      SplitJoin(parts[1..], sep);
      SplitPiece(parts[0], Join(parts[1..], sep), sep);
    }
  }

  /** Splitting a piece without separators followed by `sep` and a tail: the piece, then the tail's pieces. */
  lemma {:induction false} SplitPiece(piece: string, tail: string, sep: char)
    requires sep !in piece
    ensures tail == [] ==> Split(piece, sep) == [piece]
    ensures Split(piece + [sep] + tail, sep) == [piece] + Split(tail, sep)
  {
    if piece == [] {
      assert ([] + [sep] + tail)[1..] == tail;
    } else {
      assert sep !in piece[1..] by { assert forall k :: 0 <= k < |piece[1..]| ==> piece[1..][k] == piece[k + 1]; }
      SplitPiece(piece[1..], tail, sep);
      assert (piece + [sep] + tail)[1..] == piece[1..] + [sep] + tail;
      if tail == [] {
        assert [piece[0]] + piece[1..] == piece;
      }
      assert [piece[0]] + piece[1..] == piece;
    }
  }

  /** ASCII lower-casing of one character. */
  function LowerChar(c: char): (d: char)
    ensures 'A' <= c <= 'Z' ==> d as int == c as int + 32
    ensures !('A' <= c <= 'Z') ==> d == c
  {
    if 'A' <= c <= 'Z' then (c as int + 32) as char else c
  }

  /** `strings.ToLower`, on the characters that can lower-case to a letter of "bearer". */
  function Lower(s: string): (r: string)
    ensures |r| == |s| && forall i :: 0 <= i < |s| ==> r[i] == LowerChar(s[i])
  {
    seq(|s|, i requires 0 <= i < |s| => LowerChar(s[i]))
  }

  /** What `jwt.Parse` learns about a token: nothing (it does not decode), or the signing algorithm's kind,
      whether the signature and the standard time claims check out, and the claims. */
  datatype Decoded =
    | Undecodable
    | Decoded(hmac: bool, verified: bool, claims: Claims)

  /** The token's claims: a JSON object (`jwt.MapClaims`, where a missing key reads as nil), or another
      claims type. */
  datatype Claims = MapClaims(fields: map<string, CtxValue>) | OtherClaims

  /** A claim as `ctx.Set` stores it: the value, or `None` for nil. */
  function Claim(fields: map<string, CtxValue>, key: string): Option<CtxValue> {
    if key in fields then Some(fields[key]) else None
  }

  /** The middleware's verdict: the 401 it wrote before aborting, or the values it put in the context. */
  datatype Gate = Refused(reply: Reply) | Admitted(userId: Option<CtxValue>, email: Option<CtxValue>)

  /** The header is exactly two space-separated pieces and the first is "bearer" in any letter case. */
  predicate BearerForm(header: string) {
    var parts := Split(header, ' ');
    |parts| == 2 && Lower(parts[0]) == "bearer"
  }

  /** `AuthMiddleware`: the checks in order, each with its own 401 message. The key function refuses
      non-HMAC algorithms, which then fail like a bad signature. */
  function Authorize(header: string, parse: string -> Decoded): (g: Gate)
    ensures g.Refused? ==> g.reply.status == StatusUnauthorized
    ensures header == "" ==> g == Refused(Unauthorized("Authorization header is required"))
    ensures header != "" && !BearerForm(header) ==> g == Refused(Unauthorized("Invalid authorization header"))
    ensures g.Admitted? <==>
      BearerForm(header) && var t := parse(Split(header, ' ')[1]);
      t.Decoded? && t.hmac && t.verified && t.claims.MapClaims?
    ensures BearerForm(header) ==>
      var t := parse(Split(header, ' ')[1]);
      && (!t.Decoded? || !t.hmac || !t.verified ==> g == Refused(Unauthorized("Invalid JWT")))
      && (t.Decoded? && t.hmac && t.verified && t.claims.OtherClaims? ==>
            g == Refused(Unauthorized("Invalid token claims")))
    ensures g.Admitted? ==>
      var fields := parse(Split(header, ' ')[1]).claims.fields;
      g == Admitted(Claim(fields, "user_id"), Claim(fields, "email"))
  {
    if header == "" then Refused(Unauthorized("Authorization header is required"))
    else
      var parts := Split(header, ' ');
      if |parts| != 2 || Lower(parts[0]) != "bearer" then Refused(Unauthorized("Invalid authorization header"))
      else
        match parse(parts[1])
        case Undecodable => Refused(Unauthorized("Invalid JWT"))
        case Decoded(hmac, verified, claims) =>
          if !hmac || !verified then Refused(Unauthorized("Invalid JWT"))
          else if claims.OtherClaims? then Refused(Unauthorized("Invalid token claims"))
          else Admitted(Claim(claims.fields, "user_id"), Claim(claims.fields, "email"))
  }

  /** A header is in bearer form exactly when it is some "bearer" spelling, one space, and a token without
      spaces; what the gate then checks is that token. */
  lemma BearerFormExactly(scheme: string, token: string)
    requires ' ' !in scheme && ' ' !in token
    ensures BearerForm(scheme + " " + token) <==> Lower(scheme) == "bearer"
    ensures Split(scheme + " " + token, ' ') == [scheme, token]
  {
    SplitPiece(scheme, token, ' ');
    SplitPiece(token, [], ' ');
  }

  /** Any letter case of the scheme is accepted and nothing else is: with `BearerFormExactly` these decide
      the header's shape. */
  lemma SchemeSpellings()
    ensures Lower("Bearer") == "bearer" && Lower("BEARER") == "bearer" && Lower("bEaReR") == "bearer"
    ensures Lower("Basic") != "bearer" && Lower("Bearer:") != "bearer"
  {
    assert Lower("Basic")[1] != "bearer"[1];
    assert |Lower("Bearer:")| != |"bearer"|;
  }

  /** A doubled space makes three pieces, so the header is refused before the token is looked at. */
  lemma DoubledSpaceRefused(scheme: string, token: string, parse: string -> Decoded)
    requires ' ' !in scheme && ' ' !in token
    ensures Split(scheme + "  " + token, ' ') == [scheme, "", token]
    ensures Authorize(scheme + "  " + token, parse) == Refused(Unauthorized("Invalid authorization header"))
  {
    assert scheme + "  " + token == scheme + [' '] + ("" + [' '] + token);
    SplitPiece(scheme, "" + [' '] + token, ' ');
    SplitPiece("", token, ' ');
    SplitPiece(token, [], ' ');
    assert |scheme + "  " + token| > 0;
  }

  /** A header without a space is refused. */
  lemma NoSpaceRefused(header: string)
    requires ' ' !in header
    ensures !BearerForm(header)
  {
    SplitPiece(header, [], ' ');
  }

  /** Admission sets the user ID and email from the token and nothing else: no role reaches the context. */
  lemma AdmissionCarriesClaims(header: string, parse: string -> Decoded, fields: map<string, CtxValue>)
    requires BearerForm(header) && parse(Split(header, ' ')[1]) == Decoded(true, true, MapClaims(fields))
    ensures Authorize(header, parse) == Admitted(Claim(fields, "user_id"), Claim(fields, "email"))
  {
  }

  /** A token that does not decode, is signed with an algorithm outside HMAC, or fails verification is
      refused with one message: the key function's refusal looks like a bad signature. */
  lemma NonHmacRefused(header: string, parse: string -> Decoded)
    requires BearerForm(header)
    requires var t := parse(Split(header, ' ')[1]); !t.Decoded? || !t.hmac || !t.verified
    ensures Authorize(header, parse) == Refused(Unauthorized("Invalid JWT"))
  {
  }

  // ---------------------------------------------------------------- the registry

  const InvalidCredentials: Reply := Unauthorized("invalid email or password")

  /** The claims signed into a login token: the stored user's ID and email, nothing else. */
  function TokenClaims(u: User): (c: map<string, string>)
    ensures c.Keys == {"user_id", "email"} && c["user_id"] == u.id && c["email"] == u.email
  {
    map["user_id" := u.id, "email" := u.email]
  }

  /** The package-level `users` map, keyed by email. */
  class Registry {
    var users: map<string, User>

    /** Every account is filed under its own email. */
    ghost predicate Valid()
      reads this
    {
      forall e :: e in users ==> users[e].email == e
    }

    constructor()
      ensures users == map[] && Valid()
    {
      users := map[];
    }

    /** `POST /register`: 400 when the body does not bind, 500 when hashing fails, and otherwise the user
        with the hashed password is filed under its email, replacing any account already there, with 200. */
    method Register(body: Bound<User>, hash: string -> Result<string>) returns (reply: Reply)
      modifies this
      ensures old(Valid()) ==> Valid()
      ensures body.Malformed? ==> reply == Response(StatusBadRequest, ErrorBody(body.error)) && users == old(users)
      ensures body.Parsed? && hash(body.value.password).Failure? ==>
        reply == Response(500, ErrorBody(hash(body.value.password).message)) && users == old(users)
      ensures body.Parsed? && hash(body.value.password).Ok? ==>
        var u := body.value;
        users == old(users)[u.email := u.(password := hash(u.password).value)] &&
        reply == Response(StatusOK, MessageBody("registered successfully"))
    {
      if body.Malformed? {
        return Response(StatusBadRequest, ErrorBody(body.error));
      }
      var user := body.value;
      var hashed := hash(user.password);
      if hashed.Failure? {
        return Response(500, ErrorBody(hashed.message));
      }
      user := user.(password := hashed.value);
      users := users[user.email := user];
      reply := Response(StatusOK, MessageBody("registered successfully"));
    }

    /** `POST /login`: 400 when the body does not bind; the same 401 for an unknown email and for a wrong
        password; otherwise the stored user's claims are signed, with 500 when signing fails and 200 with
        the token. */
    function Login(body: Bound<User>, matches: (string, string) -> bool, sign: map<string, string> -> Result<string>): (reply: Reply)
      reads this
      ensures body.Malformed? ==> reply == Response(StatusBadRequest, ErrorBody(body.error))
      ensures body.Parsed? ==>
        (reply == InvalidCredentials <==>
           body.value.email !in users || !matches(users[body.value.email].password, body.value.password))
      ensures body.Parsed? && reply != InvalidCredentials ==>
        var token := sign(TokenClaims(users[body.value.email]));
        reply == if token.Failure? then Response(500, ErrorBody(token.message))
                 else Response(StatusOK, Object([("message", Text("user logged in successfully")), ("token", Text(token.value))]))
    {
      match body
      case Malformed(e) => Response(StatusBadRequest, ErrorBody(e))
      case Parsed(login) =>
        if login.email !in users then InvalidCredentials
        else
          var u := users[login.email];
          if !matches(u.password, login.password) then InvalidCredentials
          else
            match sign(TokenClaims(u))
            case Failure(m) => Response(500, ErrorBody(m))
            case Ok(token) => Response(StatusOK, Object([("message", Text("user logged in successfully")), ("token", Text(token))]))
    }

    /** The loop behind `GET /users`: one entry per stored account, each one the account filed under its
        email. */
    method ListUsers() returns (list: seq<User>)
      requires Valid()
      ensures |list| == |users|
      ensures forall i :: 0 <= i < |list| ==> list[i].email in users && users[list[i].email] == list[i]
      ensures forall e :: e in users ==> users[e] in list
    {
      list := [];
      var left := users.Keys;
      ghost var seen: set<string> := {};
      while left != {}
        invariant left + seen == users.Keys && left !! seen
        invariant |list| == |seen|
        invariant forall i :: 0 <= i < |list| ==> list[i].email in seen && users[list[i].email] == list[i]
        invariant forall e :: e in seen ==> users[e] in list
        decreases |left|
      {
        var e :| e in left;
        list := list + [users[e]];
        left := left - {e};
        seen := seen + {e};
      }
    }

    /** `GET /users` behind the middleware: the gate's 401, or every account with 200. */
    method Users(header: string, parse: string -> Decoded) returns (reply: Reply)
      requires Valid()
      ensures Authorize(header, parse).Refused? ==> reply == Authorize(header, parse).reply
      ensures Authorize(header, parse).Admitted? ==>
        reply.status == StatusOK && reply.body.Value? && |reply.body.payload.users| == |users| &&
        forall e :: e in users ==> users[e] in reply.body.payload.users
    {
      var gate := Authorize(header, parse);
      if gate.Refused? {
        return gate.reply;
      }
      var list := ListUsers();
      reply := Response(StatusOK, Value(UserList(list)));
    }
  }

  /** An unknown email and a wrong password are indistinguishable to the client. */
  lemma SameRefusal(r: Registry, unknown: User, wrong: User, matches: (string, string) -> bool,
                    sign: map<string, string> -> Result<string>)
    requires unknown.email !in r.users
    requires wrong.email in r.users && !matches(r.users[wrong.email].password, wrong.password)
    ensures r.Login(Parsed(unknown), matches, sign) == r.Login(Parsed(wrong), matches, sign) == InvalidCredentials
  {
  }

  /** A user who registers and then logs in with the same password is let in (unless signing fails),
      provided the hash check accepts a password against its own hash. */
  method RegisterThenLogin(r: Registry, u: User, hash: string -> Result<string>, matches: (string, string) -> bool,
                           sign: map<string, string> -> Result<string>) returns (reply: Reply)
    requires hash(u.password).Ok? && matches(hash(u.password).value, u.password)
    requires sign(TokenClaims(u.(password := hash(u.password).value))).Ok?
    modifies r
    ensures reply.status == StatusOK
  {
    var registered := r.Register(Parsed(u), hash);
    reply := r.Login(Parsed(User("", u.email, u.password)), matches, sign);
  }

  /** Registering an email again replaces the account: the map still has one entry for it, holding the
      second password's hash. */
  method RegisterTwice(r: Registry, first: User, second: User, hash: string -> Result<string>)
    requires first.email == second.email && hash(first.password).Ok? && hash(second.password).Ok?
    modifies r
    ensures r.users == old(r.users)[first.email := second.(password := hash(second.password).value)]
    ensures |r.users| == |old(r.users)| + (if first.email in old(r.users) then 0 else 1)
  {
    var a := r.Register(Parsed(first), hash);
    var b := r.Register(Parsed(second), hash);
  }
}

=== FILE: decimal.dfy ===
/** Go's `strconv.Atoi` on 64-bit platforms, which the task handlers use to read the `:id` path parameter,
    and `strconv.Itoa`, its inverse on well-formed input. */
module Decimal {
  import opened Outcomes

  const MinInt64: int := -0x8000_0000_0000_0000
  const MaxInt64: int := 0x7fff_ffff_ffff_ffff

  predicate IsDigit(c: char) {
    '0' <= c <= '9'
  }

  predicate AllDigits(s: string) {
    forall k :: 0 <= k < |s| ==> IsDigit(s[k])
  }

  function DigitValue(c: char): nat
    requires IsDigit(c)
  {
    (c as int) - ('0' as int)
  }

  function DigitChar(d: nat): (c: char)
    requires d < 10
    ensures IsDigit(c) && DigitValue(c) == d
  {
    (('0' as int) + d) as char
  }

  /** The value of a string of decimal digits, most significant first. */
  function DigitsValue(s: string): nat
    requires AllDigits(s)
  {
    if s == [] then 0 else DigitsValue(s[..|s| - 1]) * 10 + DigitValue(s[|s| - 1])
  }

  /** Whether `s` starts with a sign character. */
  predicate HasSign(s: string) {
    |s| > 0 && (s[0] == '+' || s[0] == '-')
  }

  /** What follows the optional leading sign. */
  function Unsigned(s: string): string {
    if HasSign(s) then s[1..] else s
  }

  /** The value a sign-and-digits string denotes: the digits' value, negated after a '-'. */
  function SignedValue(s: string): int
    requires AllDigits(Unsigned(s))
  {
    var magnitude: int := DigitsValue(Unsigned(s));
    if HasSign(s) && s[0] == '-' then -magnitude else magnitude
  }

  /** An optional '+' or '-' followed by at least one ASCII digit (no spaces, no underscores, no base
      prefix), whose value fits in a signed 64-bit integer; anything else is a syntax or range error. */
  function Atoi(s: string): (r: Option<int>)
    ensures r.Some? ==> MinInt64 <= r.value <= MaxInt64
    ensures r.Some? ==> s != [] && (IsDigit(s[0]) || s[0] == '+' || s[0] == '-')
    ensures s == [] ==> r.None?
    ensures r.Some? <==>
              Unsigned(s) != [] && AllDigits(Unsigned(s)) && MinInt64 <= SignedValue(s) <= MaxInt64
    ensures r.Some? ==> r.value == SignedValue(s)
  {
    var digits := Unsigned(s);
    if digits == [] || !AllDigits(digits) then None
    else
      var v := SignedValue(s);
      if MinInt64 <= v <= MaxInt64 then Some(v) else None
  }

  /** The shortest decimal form of a natural number. */
  function NatDigits(n: nat): (s: string)
    ensures s != [] && AllDigits(s)
  {
    if n < 10 then [DigitChar(n)] else NatDigits(n / 10) + [DigitChar(n % 10)]
  }

  /** `strconv.Itoa`: a leading '-' for negative numbers, then the digits of the magnitude. */
  function Itoa(n: int): (s: string)
    ensures s != []
  {
    if n < 0 then "-" + NatDigits(-n) else NatDigits(n)
  }

  lemma {:induction false} NatDigitsValue(n: nat)
    ensures DigitsValue(NatDigits(n)) == n
  {
    var s := NatDigits(n);
    if n >= 10 {
      NatDigitsValue(n / 10);
      assert s[..|s| - 1] == NatDigits(n / 10);
    }
  }

  /** Every 64-bit integer survives formatting and parsing unchanged. */
  lemma AtoiItoa(n: int)
    requires MinInt64 <= n <= MaxInt64
    ensures Atoi(Itoa(n)) == Some(n)
  {
    if n < 0 {
      NatDigitsValue(-n);
      assert Itoa(n)[1..] == NatDigits(-n);
    } else {
      NatDigitsValue(n);
    }
  }

  /** Parsing tolerates what formatting never produces: a '+' sign and leading zeros. */
  lemma AtoiLenient()
    ensures Atoi("+7") == Some(7)
    ensures Atoi("007") == Some(7)
    ensures Atoi("-0") == Some(0)
    ensures Atoi(" 7") == None && Atoi("7a") == None && Atoi("-") == None
  {
    assert "+7"[1..] == "7";
    assert DigitsValue("007") == DigitsValue("00") * 10 + 7 by { assert "007"[..2] == "00"; }
    assert DigitsValue("00") == DigitsValue("0") * 10 by { assert "00"[..1] == "0"; }
    assert DigitsValue("0") == DigitsValue("") * 10 by { assert "0"[..0] == ""; }
    assert "-0"[1..] == "0";
    assert !IsDigit(" 7"[0]);
    assert !IsDigit("7a"[1]);
    assert "-"[1..] == "";
  }

  /** An unsigned digit string whose value exceeds the 64-bit range is a range error. */
  lemma AtoiRange(s: string)
    requires AllDigits(s) && s != []
    requires DigitsValue(s) > MaxInt64
    ensures Atoi(s) == None
  {
  }
}

=== FILE: domain.dfy ===
/** The records of the layered task service (task7, task8) and the collaborators its usecases call: the
    Mongo repositories, password hashing and token minting. A collaborator is a record of functions, so
    each model is stated for every possible repository or crypto behaviour; what a layer did to its
    collaborators is returned as a call log. */
module Domain {
  import opened Outcomes

  /** A Mongo ObjectID in its 24-hex-digit form (`ID.Hex()`). */
  type ObjectId = string

  /** The ID of a record whose `_id` was never set: the zero ObjectID. */
  const ZeroId: ObjectId := "000000000000000000000000"

  /** A task; `userId` is never serialised to clients. */
  datatype Task = Task(id: ObjectId, userId: ObjectId, title: string, description: string, dueDate: int, status: string)

  /** A user; `password` is never serialised to clients. */
  datatype User = User(id: ObjectId, email: string, password: string, role: string)

  /** A call that receives a record by pointer and may fill in some of its fields: the record as the
      caller sees it afterwards, and the error returned. */
  datatype Saved<T> = Saved(record: T, err: Error)

  /** A result together with the collaborator calls made to produce it, in order. */
  datatype Traced<R, C> = Traced(result: R, calls: seq<C>)

  /** The task repository's methods. */
  datatype TaskRepository = TaskRepository(
    create: (Task, string) -> Saved<Task>,
    get: string -> Result<Task>,
    list: string -> Result<seq<Task>>,
    update: (string, Task) -> Error,
    remove: string -> Error)

  /** One call to the task repository, with its arguments. */
  datatype TaskCall =
    | CreateCall(task: Task, owner: string)
    | GetCall(id: string)
    | ListCall(owner: string)
    | UpdateCall(id: string, task: Task)
    | RemoveCall(id: string)

  /** The user repository's methods. `login` looks the user up by email and compares the password; it
      yields the stored record on success. task8's repository returns that record's role; task7's returns
      only whether it succeeded. */
  datatype UserRepository = UserRepository(
    register: User -> Saved<User>,
    login: User -> Result<User>,
    get: string -> Result<User>,
    all: Result<seq<User>>)

  /** Password hashing and token minting (`infrastructure.Hash`, `infrastructure.NewToken(id, email, role)`). */
  datatype Crypto = Crypto(
    hash: string -> Result<string>,
    newToken: (ObjectId, string, string) -> Result<string>)

  /** One call to the user repository or to the crypto services, with its arguments. */
  datatype UserCall =
    | HashCall(plain: string)
    | RegisterCall(user: User)
    | LoginCall(user: User)
    | TokenCall(id: ObjectId, email: string, role: string)
    | GetUserCall(email: string)
    | GetUsersCall

  /** The user usecase as the controllers see it: `Register` may fill in the user it is handed, `Login`
      yields a token (`("", err)` is a failure), the two queries yield a record or an error. */
  datatype UserService = UserService(
    register: User -> Saved<User>,
    login: User -> Result<string>,
    getUser: string -> Result<User>,
    getUsers: Result<seq<User>>)

  /** One call from a controller to the user usecase. */
  datatype ServiceCall =
    | RegisterUser(user: User)
    | LoginUser(user: User)
    | GetUserBy(email: string)
    | ListUsers
}

=== FILE: http.dfy ===
/** The parts of a gin request context the handlers touch: the bound JSON body, values placed in the
    context by middleware, and the JSON responses written back. */
module Http {
  import opened Outcomes

  const StatusOK := 200
  const StatusCreated := 201
  const StatusBadRequest := 400
  const StatusUnauthorized := 401
  const StatusForbidden := 403
  const StatusNotFound := 404
  const StatusInternalServerError := 500

  /** The outcome of binding the JSON request body into a record: the record, or the decoder's error text. */
  datatype Bound<T> = Parsed(value: T) | Malformed(error: string)

  /** A value stored in the context by middleware (`ctx.Get` yields `None` when the key is absent). Only
      its being a string matters to the handlers. */
  datatype CtxValue = Str(s: string) | NonString

  /** One value in a `gin.H` object: a string, JSON null, some other context value echoed back, or a
      payload of the handler's own kind. */
  datatype Json<P> = Text(s: string) | Null | Opaque | Data(payload: P)

  /** A response body: a `gin.H` object (fields in source order), or a payload serialised directly. */
  datatype Body<P> = Object(fields: seq<(string, Json<P>)>) | Value(payload: P)

  /** One `ctx.JSON(status, body)` call. */
  datatype Response<P> = Response(status: int, body: Body<P>)

  /** What one request did: the JSON writes in order, the calls it made to the layer below, and whether it
      ended in a run-time panic (which gin's recovery turns into a 500 when nothing was written yet). */
  datatype Handled<P, C> = Handled(writes: seq<Response<P>>, calls: seq<C>, panicked: bool)

  /** A request answered by a single write and no panic. */
  function Reply<P, C>(r: Response<P>, calls: seq<C>): (h: Handled<P, C>)
    ensures SentStatus(h.writes) == Some(r.status) && !h.panicked
  {
    Handled([r], calls, false)
  }

  function ErrorBody<P>(message: string): Body<P> {
    Object([("error", Text(message))])
  }

  function MessageBody<P>(message: string): Body<P> {
    Object([("message", Text(message))])
  }

  /** A context value as it appears when echoed into a `gin.H`. */
  function Echo<P>(v: Option<CtxValue>): Json<P> {
    match v
    case None => Null
    case Some(Str(s)) => Text(s)
    case Some(NonString) => Opaque
  }

  /** `exists && value == role` on an `interface{}` compared with a string constant: true only for a
      string with exactly that content. */
  predicate HasRole(v: Option<CtxValue>, role: string) {
    v == Some(Str(role))
  }

  /** gin writes the status line with the first `ctx.JSON` of a request; later calls only append their
      bodies. The status a client receives is therefore the first write's. */
  function SentStatus<P>(writes: seq<Response<P>>): (s: Option<int>)
    ensures s.None? <==> writes == []
    ensures s.Some? ==> s.value == writes[0].status
  {
    if writes == [] then None else Some(writes[0].status)
  }
}

=== FILE: library.dfy ===
/** The in-memory library catalogue: books and members kept in two maps, IDs handed out by
    package-wide counters, and the borrow/return rules between them. */
module Library {
  import opened Outcomes
  import Sets

  const Available := "Available"
  const Borrowed := "Borrowed"

  datatype Book = Book(id: int, title: string, author: string, status: string)

  datatype Member = Member(id: int, name: string, borrowedBooks: seq<Book>)

  /** The two maps of a library, as one value. */
  datatype Catalogue = Catalogue(books: map<int, Book>, members: map<int, Member>)

  /** The catalogue after an operation together with the error it returned. */
  datatype Step = Step(cat: Catalogue, err: Error)

  /** Every entry is stored under its own ID, and every ID is below the counter that hands out the next one,
      so a fresh ID never collides with a stored or a removed entry. */
  ghost predicate WellKeyed(cat: Catalogue, nextBook: int, nextMember: int) {
    && 0 <= nextBook && 0 <= nextMember
    && (forall id :: id in cat.books ==> 0 <= id < nextBook && cat.books[id].id == id)
    && (forall id :: id in cat.members ==> 0 <= id < nextMember && cat.members[id].id == id)
  }

  /** The IDs of the stored books whose status is "Available". */
  ghost function AvailableIds(books: map<int, Book>): set<int> {
    set id | id in books && books[id].status == Available
  }

  /** The position of the first entry of `s` with ID `bookID`, or |s| when there is none. */
  function FirstMatch(s: seq<Book>, bookID: int): (i: nat)
    ensures i <= |s|
    ensures forall k :: 0 <= k < i ==> s[k].id != bookID
    ensures i < |s| ==> s[i].id == bookID
  {
    if s == [] then 0
    else if s[0].id == bookID then 0
    else 1 + FirstMatch(s[1..], bookID)
  }

  /** What the backing array of a slice `s` holds after `append(s[:i], s[i+1:]...)`: the entries after `i`
      move one slot to the left and the last slot keeps its old entry. A slice that still has the old
      length (the copy stored in the map) sees all |s| slots. */
  function ShiftOut(s: seq<Book>, i: nat): (t: seq<Book>)
    requires i < |s|
    ensures |t| == |s|
    ensures forall k :: 0 <= k < i ==> t[k] == s[k]
    ensures forall k :: i <= k < |s| - 1 ==> t[k] == s[k + 1]
    ensures t[|s| - 1] == s[|s| - 1]
  {
    s[..i] + s[i + 1..] + [s[|s| - 1]]
  }

  /** BorrowBook on a catalogue value. */
  function Borrow(cat: Catalogue, bookID: int, memberID: int): (r: Step)
    ensures bookID !in cat.books ==> r.err == Err("book not found")
    ensures bookID in cat.books && cat.books[bookID].status == Borrowed ==> r.err == Err("book is borrowed")
    ensures bookID in cat.books && cat.books[bookID].status != Borrowed && memberID !in cat.members ==>
              r.err == Err("member not found")
    ensures r.err.Err? ==> r.cat == cat
    ensures r.err.Nil? ==>
              && r.cat.books.Keys == cat.books.Keys
              && r.cat.members.Keys == cat.members.Keys
              && r.cat.books[bookID] == cat.books[bookID].(status := Borrowed)
              && r.cat.members[memberID].borrowedBooks == cat.members[memberID].borrowedBooks + [r.cat.books[bookID]]
              && r.cat.members[memberID] ==
                   cat.members[memberID].(borrowedBooks := cat.members[memberID].borrowedBooks + [r.cat.books[bookID]])
              && (forall id :: id in cat.books && id != bookID ==> r.cat.books[id] == cat.books[id])
              && (forall id :: id in cat.members && id != memberID ==> r.cat.members[id] == cat.members[id])
  {
    if bookID !in cat.books then Step(cat, Err("book not found"))
    else if cat.books[bookID].status == Borrowed then Step(cat, Err("book is borrowed"))
    else if memberID !in cat.members then Step(cat, Err("member not found"))
    else
      var book := cat.books[bookID].(status := Borrowed);
      var member := cat.members[memberID];
      Step(Catalogue(cat.books[bookID := book],
                     cat.members[memberID := member.(borrowedBooks := member.borrowedBooks + [book])]),
           Nil)
  }

  /** The checks ReturnBook makes before it changes anything; it never asks whether `memberID` holds the book. */
  function ReturnError(cat: Catalogue, bookID: int, memberID: int): (e: Error)
    ensures e.Nil? <==> bookID in cat.books && cat.books[bookID].status != Available && memberID in cat.members
  {
    if bookID !in cat.books then Err("book not found")
    else if cat.books[bookID].status == Available then Err("book was not borrowed ")
    else if memberID !in cat.members then Err("member not found")
    else Nil
  }

  /** ReturnBook as the source runs it: the book is written back as "Available"; the member entry is never
      reassigned, but the splice on its local copy overwrites the backing array that the stored copy shares. */
  function ReturnAsWritten(cat: Catalogue, bookID: int, memberID: int): (r: Step)
    ensures r.err == ReturnError(cat, bookID, memberID)
    ensures r.err.Err? ==> r.cat == cat
    ensures r.err.Nil? ==>
              && r.cat.books == cat.books[bookID := cat.books[bookID].(status := Available)]
              && r.cat.members.Keys == cat.members.Keys
              && |r.cat.members[memberID].borrowedBooks| == |cat.members[memberID].borrowedBooks|
              && (forall id :: id in cat.members && id != memberID ==> r.cat.members[id] == cat.members[id])
    ensures r.err.Nil? ==>
              var old_ := cat.members[memberID];
              var s, t := old_.borrowedBooks, r.cat.members[memberID];
              var i := FirstMatch(s, bookID);
              && t.id == old_.id && t.name == old_.name
              && (i < |s| ==> t.borrowedBooks == ShiftOut(s, i))
              && (i == |s| ==> t == old_)
  {
    var e := ReturnError(cat, bookID, memberID);
    if e.Err? then Step(cat, e)
    else
      var member := cat.members[memberID];
      var s := member.borrowedBooks;
      var i := FirstMatch(s, bookID);
      var stored := if i < |s| then ShiftOut(s, i) else s;
      Step(Catalogue(cat.books[bookID := cat.books[bookID].(status := Available)],
                     cat.members[memberID := member.(borrowedBooks := stored)]),
           Nil)
  }

  /** ReturnBook as evidently intended: the first entry for the book is removed from the member's list and
      the member is written back. */
  function ReturnIntended(cat: Catalogue, bookID: int, memberID: int): (r: Step)
    ensures r.err == ReturnError(cat, bookID, memberID)
    ensures r.err.Err? ==> r.cat == cat
    ensures r.err.Nil? ==>
              && r.cat.books == cat.books[bookID := cat.books[bookID].(status := Available)]
              && r.cat.members.Keys == cat.members.Keys
              && (forall id :: id in cat.members && id != memberID ==> r.cat.members[id] == cat.members[id])
    ensures r.err.Nil? ==>
              var old_ := cat.members[memberID];
              var s, t := old_.borrowedBooks, r.cat.members[memberID];
              var i := FirstMatch(s, bookID);
              && t.id == old_.id && t.name == old_.name
              && (i < |s| ==> |t.borrowedBooks| == |s| - 1 && multiset(t.borrowedBooks) == multiset(s) - multiset{s[i]})
              && (i == |s| ==> t == old_)
  {
    var e := ReturnError(cat, bookID, memberID);
    if e.Err? then Step(cat, e)
    else
      var member := cat.members[memberID];
      Step(Catalogue(cat.books[bookID := cat.books[bookID].(status := Available)],
                     cat.members[memberID := member.(borrowedBooks := RemoveFirst(member.borrowedBooks, bookID))]),
           Nil)
  }

  /** The splice as intended: the first entry with ID `bookID` leaves the list, and nothing else changes. */
  function RemoveFirst(s: seq<Book>, bookID: int): (t: seq<Book>)
    ensures var i := FirstMatch(s, bookID);
            && (i < |s| ==> |t| == |s| - 1 && multiset(t) == multiset(s) - multiset{s[i]})
            && (i == |s| ==> t == s)
  {
    var i := FirstMatch(s, bookID);
    if i < |s| then RemoveFirstMultiset(s, bookID); s[..i] + s[i + 1..] else s
  }

  /** Removing the first entry with a given ID removes exactly one copy of that entry. */
  lemma {:induction false} RemoveFirstMultiset(s: seq<Book>, bookID: int)
    requires FirstMatch(s, bookID) < |s|
    ensures var i := FirstMatch(s, bookID);
            multiset(s[..i] + s[i + 1..]) == multiset(s) - multiset{s[i]}
  {
    var i := FirstMatch(s, bookID);
    assert s == s[..i] + [s[i]] + s[i + 1..];
    assert multiset(s) == multiset(s[..i]) + multiset{s[i]} + multiset(s[i + 1..]);
  }

  /** Borrowing a book stored under its own ID and then returning it (as intended) with the same member
      restores the member when the member held no copy of the book before, and restores the book when it
      was "Available". */
  lemma {:induction false} ReturnIntendedUndoesBorrow(cat: Catalogue, bookID: int, memberID: int)
    requires Borrow(cat, bookID, memberID).err.Nil?
    requires cat.books[bookID].id == bookID
    requires FirstMatch(cat.members[memberID].borrowedBooks, bookID) == |cat.members[memberID].borrowedBooks|
    ensures var back := ReturnIntended(Borrow(cat, bookID, memberID).cat, bookID, memberID);
            && back.err.Nil?
            && back.cat.members == cat.members
            && (cat.books[bookID].status == Available ==> back.cat.books == cat.books)
  {
    var after := Borrow(cat, bookID, memberID).cat;
    var s := cat.members[memberID].borrowedBooks;
    var t := after.members[memberID].borrowedBooks;
    assert t == s + [after.books[bookID]];
    FirstMatchAppend(s, after.books[bookID], bookID);
    assert t[..|s|] + t[|s| + 1..] == s;
  }

  /** The first match in `s + [b]` is past `s` when `s` holds no entry for the ID and `b` does. */
  lemma {:induction false} FirstMatchAppend(s: seq<Book>, b: Book, bookID: int)
    requires FirstMatch(s, bookID) == |s|
    requires b.id == bookID
    ensures FirstMatch(s + [b], bookID) == |s|
  {
    assert forall k :: 0 <= k < |s| ==> (s + [b])[k] == s[k];
    assert (s + [b])[|s|] == b;
  }

  /** The defect of ReturnAsWritten: a member who borrowed one book and returns it still lists that book,
      because the one-slot shift leaves the last (and only) slot as it was. */
  lemma SoleBookSurvivesReturn(cat: Catalogue, bookID: int, memberID: int)
    requires Borrow(cat, bookID, memberID).err.Nil?
    requires cat.members[memberID].borrowedBooks == []
    ensures var after := Borrow(cat, bookID, memberID).cat;
            var back := ReturnAsWritten(after, bookID, memberID);
            && back.err.Nil?
            && back.cat.books[bookID].status == Available
            && back.cat.members[memberID].borrowedBooks == [after.books[bookID]]
  {
    var after := Borrow(cat, bookID, memberID).cat;
    assert after.members[memberID].borrowedBooks == [after.books[bookID]];
  }

  /** The package-level counters `bookcount` and `membercount`: shared by every Library and never decremented. */
  class Counters {
    var bookCount: int
    var memberCount: int

    constructor ()
      ensures bookCount == 0 && memberCount == 0
    {
      bookCount, memberCount := 0, 0;
    }
  }

  class Library {
    var books: map<int, Book>
    var members: map<int, Member>

    constructor ()
      ensures books == map[] && members == map[]
    {
      books, members := map[], map[];
    }

    function Snapshot(): Catalogue
      reads this
    {
      Catalogue(books, members)
    }

    ghost predicate Valid(c: Counters)
      reads this, c
    {
      WellKeyed(Snapshot(), c.bookCount, c.memberCount)
    }

    /** Stores the book under the next book ID, which no stored or removed book has had. */
    method AddBook(c: Counters, book: Book)
      requires Valid(c)
      modifies this, c
      ensures Valid(c)
      ensures old(c.bookCount) !in old(books)
      ensures books == old(books)[old(c.bookCount) := book.(id := old(c.bookCount))]
      ensures members == old(members)
      ensures c.bookCount == old(c.bookCount) + 1 && c.memberCount == old(c.memberCount)
    {
      var stored := book.(id := c.bookCount);
      books := books[c.bookCount := stored];
      c.bookCount := c.bookCount + 1;
    }

    /** Removes a stored book; removing never lets a later AddBook reuse an ID. */
    method RemoveBook(ghost c: Counters, bookID: int) returns (err: Error)
      modifies this
      ensures old(Valid(c)) ==> Valid(c)
      ensures err == (if bookID in old(books) then Nil else Err("book not found"))
      ensures books == old(books) - {bookID}
      ensures members == old(members)
    {
      if bookID !in books {
        return Err("book not found");
      }
      books := books - {bookID};
      err := Nil;
    }

    /** Stores a member with the next member ID, the given name and no borrowed books, and returns that ID. */
    method AddMember(c: Counters, name: string) returns (id: int)
      requires Valid(c)
      modifies this, c
      ensures Valid(c)
      ensures id == old(c.memberCount) && id !in old(members)
      ensures members == old(members)[id := Member(id, name, [])]
      ensures books == old(books)
      ensures c.memberCount == old(c.memberCount) + 1 && c.bookCount == old(c.bookCount)
    {
      id := c.memberCount;
      members := members[id := Member(id, name, [])];
      c.memberCount := c.memberCount + 1;
    }

    /** Borrows a book for a member; every entry keeps its key and its ID, so validity is kept. */
    method BorrowBook(ghost c: Counters, bookID: int, memberID: int) returns (err: Error)
      modifies this
      ensures old(Valid(c)) ==> Valid(c)
      ensures Step(Snapshot(), err) == Borrow(old(Snapshot()), bookID, memberID)
    {
      if bookID !in books {
        return Err("book not found");
      }
      var book := books[bookID];
      if book.status == Borrowed {
        return Err("book is borrowed");
      }
      if memberID !in members {
        return Err("member not found");
      }
      var member := members[memberID];
      book := book.(status := Borrowed);
      books := books[bookID := book];
      member := member.(borrowedBooks := member.borrowedBooks + [book]);
      members := members[memberID := member];
      err := Nil;
    }

    /** Returns a book as the source does; every entry keeps its key and its ID, so validity is kept. */
    method ReturnBook(ghost c: Counters, bookID: int, memberID: int) returns (err: Error)
      modifies this
      ensures old(Valid(c)) ==> Valid(c)
      ensures Step(Snapshot(), err) == ReturnAsWritten(old(Snapshot()), bookID, memberID)
    {
      if bookID !in books {
        return Err("book not found");
      }
      var book := books[bookID];
      if book.status == Available {
        return Err("book was not borrowed ");
      }
      if memberID !in members {
        return Err("member not found");
      }
      var member := members[memberID];
      var borrowed := member.borrowedBooks;
      var i := 0;
      while i < |borrowed|
        invariant 0 <= i <= |borrowed|
        invariant forall k :: 0 <= k < i ==> borrowed[k].id != bookID
        invariant members == old(members) && books == old(books)
      {
        if borrowed[i].id == bookID {
          // The splice shortens only the local copy; the entry stored in the map keeps its length and
          // shares the backing array, so it now reads ShiftOut(borrowed, i).
          members := members[memberID := member.(borrowedBooks := ShiftOut(borrowed, i))];
          break;
        }
        i := i + 1;
      }
      books := books[bookID := book.(status := Available)];
      err := Nil;
    }

    /** Every available book once, in the map's (unspecified) iteration order. */
    method ListAvailableBooks() returns (r: seq<Book>, ghost ids: seq<int>)
      ensures |ids| == |r| == |AvailableIds(books)|
      ensures forall k :: 0 <= k < |r| ==> ids[k] in books && r[k] == books[ids[k]]
      ensures forall k, l :: 0 <= k < l < |ids| ==> ids[k] != ids[l]
      ensures forall id :: id in ids <==> id in AvailableIds(books)
      ensures |r| == |AvailableIds(books)|
      ensures forall k :: 0 <= k < |r| ==> r[k].status == Available
      ensures forall id :: id in AvailableIds(books) ==> books[id] in r
    {
      r, ids := [], [];
      var rest := books.Keys;
      while rest != {}
        invariant rest <= books.Keys
        invariant |ids| == |r|
        invariant forall k :: 0 <= k < |r| ==> ids[k] in books && r[k] == books[ids[k]]
        invariant forall k, l :: 0 <= k < l < |ids| ==> ids[k] != ids[l]
        invariant forall id :: id in ids ==> id !in rest && id in AvailableIds(books)
        invariant forall id :: id in AvailableIds(books) && id !in rest ==> id in ids
        decreases |rest|
      {
        // The element handed back is the witness that lets the next key be chosen.
        ghost var pick := Sets.ElementOf(rest);
        var id :| id in rest;
        if books[id].status == Available {
          r, ids := r + [books[id]], ids + [id];
        }
        rest := rest - {id};
      }
      Sets.DistinctSize(ids);
      assert (set id | id in ids) == AvailableIds(books);
      forall id | id in AvailableIds(books)
        ensures books[id] in r
      {
        var k :| 0 <= k < |ids| && ids[k] == id;
        assert r[k] == books[id];
      }
    }

    /** The borrowed list of a known member; nil (the empty list) for an unknown one. */
    function ListBorrowedBooks(memberID: int): (r: seq<Book>)
      reads this
      ensures memberID in members ==> r == members[memberID].borrowedBooks
      ensures memberID !in members ==> r == []
    {
      if memberID in members then members[memberID].borrowedBooks else []
    }
  }
}

=== FILE: outcomes.dfy ===
/** Value shapes shared by every module: Go's `(T, bool)`, `(T, error)` and bare `error` returns. */
module Outcomes {

  /** A value that may be absent (a map lookup's `ok`, a nil pointer, a context key that was never set). */
  datatype Option<+T> = None | Some(value: T)

  /** Go's `(T, error)` pair where exactly one side is meaningful. */
  datatype Result<+T> = Ok(value: T) | Failure(message: string)

  /** Go's `error`: nil, or an error carrying its message. */
  datatype Error = Nil | Err(message: string)
}

=== FILE: palindrome.dfy ===
/** `palindrome` of task2: a two-pointer walk over a lower-cased word that skips every byte that is not
    a letter or digit and compares the rest from both ends.

    The word is a byte string (Go indexes `word[i]` by byte). `isAlnumByte` stands for
    `unicode.IsDigit(rune(b)) || unicode.IsLetter(rune(b))` applied to a single byte, and `toLower` for
    `strings.ToLower`, which may change the length of a non-ASCII word. */
module Palindromes {
  import opened Outcomes
  import Seqs

  newtype byte = b: int | 0 <= b < 256

  /** The letters and digits of `w[lo..hi]`, in order. */
  function Letters(w: seq<byte>, lo: int, hi: int, isAlnumByte: byte -> bool): (f: seq<byte>)
    requires 0 <= lo <= hi <= |w|
    ensures |f| <= hi - lo
    decreases hi - lo
  {
    if lo == hi then [] else Letters(w, lo, hi - 1, isAlnumByte) + Keep(w[hi - 1], isAlnumByte)
  }

  /** The letters and digits of the whole word. */
  function Filter(w: seq<byte>, isAlnumByte: byte -> bool): (f: seq<byte>)
    ensures |f| <= |w|
  {
    Letters(w, 0, |w|, isAlnumByte)
  }

  function Keep(c: byte, isAlnumByte: byte -> bool): (f: seq<byte>)
    ensures |f| <= 1 && (|f| == 1 <==> isAlnumByte(c))
  {
    if isAlnumByte(c) then [c] else []
  }

  function Reverse(s: seq<byte>): (r: seq<byte>)
    ensures |r| == |s| && forall k :: 0 <= k < |s| ==> r[k] == s[|s| - 1 - k]
  {
    seq(|s|, k requires 0 <= k < |s| => s[|s| - 1 - k])
  }

  predicate IsPalindrome(s: seq<byte>) {
    s == Reverse(s)
  }

  /* ---------- sequence facts ---------- */

  lemma ReverseAppend(a: seq<byte>, b: seq<byte>)
    ensures Reverse(a + b) == Reverse(b) + Reverse(a)
  {
    var l, r := Reverse(a + b), Reverse(b) + Reverse(a);
    forall k | 0 <= k < |l|
      ensures l[k] == r[k]
    {
      if k < |b| {
        assert r[k] == b[|b| - 1 - k];
      } else {
        assert r[k] == a[|a| - 1 - (k - |b|)];
      }
    }
  }

  lemma ReverseInvolution(s: seq<byte>)
    ensures Reverse(Reverse(s)) == s
  {
  }

  lemma ShortIsOwnReverse(c: seq<byte>)
    requires |c| <= 1
    ensures Reverse(c) == c
  {
  }

  lemma CancelRight(a: seq<byte>, b: seq<byte>, c: seq<byte>)
    requires a + c == b + c
    ensures a == b
  {
    assert |a| == |b|;
    forall k | 0 <= k < |a|
      ensures a[k] == b[k]
    {
      assert a[k] == (a + c)[k];
      assert b[k] == (b + c)[k];
    }
  }

  /** `p c q` reads the same backwards when `p` mirrors `q` and `c` has at most one element. */
  lemma Sandwich(p: seq<byte>, c: seq<byte>, q: seq<byte>)
    requires p == Reverse(q) && |c| <= 1
    ensures IsPalindrome(p + c + q)
  {
    ReverseAppend(p + c, q);
    ReverseAppend(p, c);
    ShortIsOwnReverse(c);
    ReverseInvolution(q);
  }

  /** Letters that differ at mirrored places rule out a palindrome. */
  lemma Asymmetric(p: seq<byte>, x: byte, mid: seq<byte>, y: byte, q: seq<byte>)
    requires |p| == |q| && x != y
    ensures !IsPalindrome(p + ([x] + mid + [y]) + q)
  {
    var f := p + ([x] + mid + [y]) + q;
    assert f[|p|] == x;
    assert f[|f| - 1 - |p|] == y;
  }

  /* ---------- Letters facts ---------- */

  /** Cutting a range cuts its letters at the same place. */
  lemma {:induction false} LettersSplit(w: seq<byte>, lo: int, mid: int, hi: int, isAlnumByte: byte -> bool)
    requires 0 <= lo <= mid <= hi <= |w|
    ensures Letters(w, lo, hi, isAlnumByte) == Letters(w, lo, mid, isAlnumByte) + Letters(w, mid, hi, isAlnumByte)
    decreases hi - mid
  {
    if hi == mid {
      Seqs.AppendEmpty(Letters(w, lo, mid, isAlnumByte));
    } else {
      LettersSplit(w, lo, mid, hi - 1, isAlnumByte);
      Seqs.AppendAssoc(Letters(w, lo, mid, isAlnumByte), Letters(w, mid, hi - 1, isAlnumByte), Keep(w[hi - 1], isAlnumByte));
    }
  }

  /** The letters of a range are its first byte's, if a letter, then the rest. */
  lemma LettersCons(w: seq<byte>, lo: int, hi: int, isAlnumByte: byte -> bool)
    requires 0 <= lo < hi <= |w|
    ensures Letters(w, lo, hi, isAlnumByte) == Keep(w[lo], isAlnumByte) + Letters(w, lo + 1, hi, isAlnumByte)
  {
    LettersSplit(w, lo, lo + 1, hi, isAlnumByte);
    Seqs.AppendEmpty(Keep(w[lo], isAlnumByte));
  }

  /* ---------- the walk ---------- */

  /** The loop invariant: the letters passed from the left, those of `w[..i]`, mirror those passed from
      the right, those of `w[j + 1..n]`. */
  ghost predicate Mirrored(w: seq<byte>, n: int, i: int, j: int, isAlnumByte: byte -> bool) {
    0 <= i <= n <= |w| && -1 <= j < n &&
    Letters(w, 0, i, isAlnumByte) == Reverse(Letters(w, j + 1, n, isAlnumByte))
  }

  /** Pointers that met, or are adjacent, leave at most one byte between the mirrored halves. */
  lemma MeetAdjacent(w: seq<byte>, n: int, i: int, j: int, isAlnumByte: byte -> bool)
    requires Mirrored(w, n, i, j, isAlnumByte) && j <= i <= j + 1
    ensures IsPalindrome(Letters(w, 0, n, isAlnumByte))
  {
    LettersSplit(w, 0, i, n, isAlnumByte);
    LettersSplit(w, i, j + 1, n, isAlnumByte);
    var p, c, q := Letters(w, 0, i, isAlnumByte), Letters(w, i, j + 1, isAlnumByte), Letters(w, j + 1, n, isAlnumByte);
    Seqs.AppendAssoc(p, c, q);
    Sandwich(p, c, q);
  }

  /** `p c` mirrors `c q` for a `c` of at most one element: then `p` mirrors `q`. */
  lemma PeelMiddle(p: seq<byte>, c: seq<byte>, q: seq<byte>)
    requires |c| <= 1 && p + c == Reverse(c + q)
    ensures p == Reverse(q)
  {
    ReverseAppend(c, q);
    ShortIsOwnReverse(c);
    CancelRight(p, Reverse(q), c);
  }

  /** Pointers that crossed have both passed the byte `w[j + 1]` between them. */
  lemma MeetCrossed(w: seq<byte>, n: int, i: int, j: int, isAlnumByte: byte -> bool)
    requires Mirrored(w, n, i, j, isAlnumByte) && i == j + 2
    ensures IsPalindrome(Letters(w, 0, n, isAlnumByte))
  {
    var m := j + 1;
    var p, c, q := Letters(w, 0, m, isAlnumByte), Keep(w[m], isAlnumByte), Letters(w, m + 1, n, isAlnumByte);
    LettersCons(w, m, n, isAlnumByte);
    PeelMiddle(p, c, q);
    LettersSplit(w, 0, m, n, isAlnumByte);
    Seqs.AppendAssoc(p, c, q);
    Sandwich(p, c, q);
  }

  /** The letters from the letter `w[i]` to the letter `w[j]`. */
  lemma SegmentEnds(w: seq<byte>, i: int, j: int, isAlnumByte: byte -> bool)
    requires 0 <= i < j < |w| && isAlnumByte(w[i]) && isAlnumByte(w[j])
    ensures Letters(w, i, j + 1, isAlnumByte) == [w[i]] + Letters(w, i + 1, j, isAlnumByte) + [w[j]]
  {
    var mid := Letters(w, i + 1, j, isAlnumByte);
    calc {
      Letters(w, i, j + 1, isAlnumByte);
    == { LettersCons(w, i, j + 1, isAlnumByte); }
      Keep(w[i], isAlnumByte) + Letters(w, i + 1, j + 1, isAlnumByte);
    ==
      [w[i]] + (mid + [w[j]]);
    == { Seqs.AppendAssoc([w[i]], mid, [w[j]]); }
      [w[i]] + mid + [w[j]];
    }
  }

  /** Two letters at mirrored places that differ rule out a palindrome. */
  lemma MismatchIsNotPalindrome(w: seq<byte>, n: int, i: int, j: int, isAlnumByte: byte -> bool)
    requires Mirrored(w, n, i, j, isAlnumByte) && i < j
    requires isAlnumByte(w[i]) && isAlnumByte(w[j]) && w[i] != w[j]
    ensures !IsPalindrome(Letters(w, 0, n, isAlnumByte))
  {
    var p, mid, q := Letters(w, 0, i, isAlnumByte), Letters(w, i + 1, j, isAlnumByte), Letters(w, j + 1, n, isAlnumByte);
    var seg := [w[i]] + mid + [w[j]];
    calc {
      Letters(w, 0, n, isAlnumByte);
    == { LettersSplit(w, 0, i, n, isAlnumByte); }
      p + Letters(w, i, n, isAlnumByte);
    == { LettersSplit(w, i, j + 1, n, isAlnumByte); SegmentEnds(w, i, j, isAlnumByte); }
      p + (seg + q);
    == { Seqs.AppendAssoc(p, seg, q); }
      p + seg + q;
    }
    assert |p| == |q|;
    Asymmetric(p, w[i], mid, w[j], q);
  }

  /** Both pointers step inward past a matching pair. */
  lemma MatchStep(w: seq<byte>, n: int, i: int, j: int, isAlnumByte: byte -> bool)
    requires Mirrored(w, n, i, j, isAlnumByte) && i <= j && w[i] == w[j]
    ensures Mirrored(w, n, i + 1, j - 1, isAlnumByte)
  {
    LettersCons(w, j, n, isAlnumByte);
    var c := Keep(w[j], isAlnumByte);
    ReverseAppend(c, Letters(w, j + 1, n, isAlnumByte));
    ShortIsOwnReverse(c);
  }

  /** A skipped non-letter on the left keeps the invariant. */
  lemma SkipLeft(w: seq<byte>, n: int, i: int, j: int, isAlnumByte: byte -> bool)
    requires Mirrored(w, n, i, j, isAlnumByte) && i < j && !isAlnumByte(w[i])
    ensures Mirrored(w, n, i + 1, j, isAlnumByte)
  {
    Seqs.AppendEmpty(Letters(w, 0, i, isAlnumByte));
  }

  /** A skipped non-letter on the right keeps the invariant. */
  lemma SkipRight(w: seq<byte>, n: int, i: int, j: int, isAlnumByte: byte -> bool)
    requires Mirrored(w, n, i, j, isAlnumByte) && i < j && !isAlnumByte(w[j])
    ensures Mirrored(w, n, i, j - 1, isAlnumByte)
  {
    LettersCons(w, j, n, isAlnumByte);
    Seqs.AppendEmpty(Letters(w, j + 1, n, isAlnumByte));
  }

  /** The first inner loop of the walk: the left pointer skips bytes that are neither letters nor digits.
      `ok` is false when it reads past the end of `w`, which panics in Go. */
  method SkipSeparatorsLeft(w: seq<byte>, n: int, i0: int, j: int, isAlnumByte: byte -> bool) returns (i: int, ok: bool)
    requires 0 <= i0 <= j < n
    requires n <= |w| ==> Mirrored(w, n, i0, j, isAlnumByte)
    ensures i0 <= i <= j
    ensures n <= |w| ==> ok && Mirrored(w, n, i, j, isAlnumByte)
    ensures ok && i < j ==> i < |w| && isAlnumByte(w[i])
  {
    i := i0;
    while i < j
      invariant i0 <= i <= j
      invariant n <= |w| ==> Mirrored(w, n, i, j, isAlnumByte)
      decreases j - i
    {
      if i >= |w| {
        return i, false;
      }
      if isAlnumByte(w[i]) {
        break;
      }
      if n <= |w| {
        SkipLeft(w, n, i, j, isAlnumByte);
      }
      i := i + 1;
    }
    ok := true;
  }

  /** The second inner loop of the walk: the right pointer skips bytes that are neither letters nor
      digits. `ok` is false when it reads past the end of `w`, at once if it starts there. */
  method SkipSeparatorsRight(w: seq<byte>, n: int, i: int, j0: int, isAlnumByte: byte -> bool) returns (j: int, ok: bool)
    requires 0 <= i <= j0 < n
    requires n <= |w| ==> Mirrored(w, n, i, j0, isAlnumByte)
    ensures i <= j <= j0
    ensures n <= |w| ==> ok && Mirrored(w, n, i, j, isAlnumByte)
    ensures |w| <= j0 && i < j0 ==> !ok
    ensures ok && i < j ==> j < |w| && isAlnumByte(w[j])
  {
    j := j0;
    while i < j
      invariant i <= j <= j0
      invariant n <= |w| ==> Mirrored(w, n, i, j, isAlnumByte)
      invariant j < j0 ==> j0 < |w|
      decreases j - i
    {
      if j >= |w| {
        return j, false;
      }
      if isAlnumByte(w[j]) {
        break;
      }
      if n <= |w| {
        SkipRight(w, n, i, j, isAlnumByte);
      }
      j := j - 1;
    }
    ok := true;
  }

  /** The comparison in the walk: the two letters the pointers stopped at either differ, which rules out a
      palindrome, or match and can be passed by both pointers. */
  method CompareEnds(w: seq<byte>, n: int, i: int, j: int, isAlnumByte: byte -> bool) returns (same: bool)
    requires 0 <= i <= j < n <= |w| && Mirrored(w, n, i, j, isAlnumByte)
    requires i < j ==> isAlnumByte(w[i]) && isAlnumByte(w[j])
    ensures same <==> w[i] == w[j]
    ensures same ==> Mirrored(w, n, i + 1, j - 1, isAlnumByte)
    ensures !same ==> !IsPalindrome(Letters(w, 0, n, isAlnumByte))
  {
    same := w[i] == w[j];
    if same {
      MatchStep(w, n, i, j, isAlnumByte);
    } else {
      MismatchIsNotPalindrome(w, n, i, j, isAlnumByte);
    }
  }

  /** The two-pointer walk over the lowered bytes `w`, with the right pointer starting at `n - 1`. Indexing
      past the end of `w` is a Go panic and gives `None`. When `n` is within `w` no index goes out of range
      and the answer is whether the letters and digits of `w[..n]` read the same backwards; when `n` is past
      the end of `w` and at least 2, the walk always panics. */
  method Scan(w: seq<byte>, n: nat, isAlnumByte: byte -> bool) returns (r: Option<bool>)
    ensures n <= |w| ==> r == Some(IsPalindrome(Letters(w, 0, n, isAlnumByte)))
    ensures 2 <= n && |w| < n ==> r == None
    ensures n <= 1 ==> r == Some(true)
  {
    var i, j := 0, n - 1;
    while i < j
      invariant 0 <= i <= n && -1 <= j < n && i <= j + 2
      invariant n <= |w| ==> Mirrored(w, n, i, j, isAlnumByte)
      invariant 2 <= n && |w| < n ==> i == 0 && j == n - 1
      decreases j - i
    {
      var ok;
      i, ok := SkipSeparatorsLeft(w, n, i, j, isAlnumByte);
      if !ok {
        return None;
      }
      j, ok := SkipSeparatorsRight(w, n, i, j, isAlnumByte);
      if !ok || i >= |w| || j >= |w| {
        return None;
      }
      assert n <= |w|;
      var same := CompareEnds(w, n, i, j, isAlnumByte);
      if !same {
        return Some(false);
      }
      i, j := i + 1, j - 1;
    }
    if n <= |w| {
      if i == j + 2 {
        MeetCrossed(w, n, i, j, isAlnumByte);
      } else {
        MeetAdjacent(w, n, i, j, isAlnumByte);
      }
    }
    return Some(true);
  }

  /** `palindrome` as written: the right pointer starts from the length of the word before lower-casing,
      then the walk runs over the lowered bytes. Whenever lower-casing shortens a word of two or more
      bytes the walk indexes past the end and panics; whenever it lengthens the word, only the first
      `|word|` lowered bytes are judged. */
  method PalindromeAsWritten(word: seq<byte>, isAlnumByte: byte -> bool, toLower: seq<byte> -> seq<byte>)
    returns (r: Option<bool>)
    ensures |word| <= |toLower(word)| ==> r == Some(IsPalindrome(Letters(toLower(word), 0, |word|, isAlnumByte)))
    ensures |word| >= 2 && |toLower(word)| < |word| ==> r == None
    ensures |word| <= 1 ==> r == Some(true)
  {
    var n := |word|;
    var lowered := toLower(word);
    r := Scan(lowered, n, isAlnumByte);
  }

  /** `palindrome` with the right pointer taken from the lowered word: it never panics and answers
      whether the letters and digits of the lowered word read the same backwards. */
  method Palindrome(word: seq<byte>, isAlnumByte: byte -> bool, toLower: seq<byte> -> seq<byte>) returns (r: bool)
    ensures r <==> IsPalindrome(Filter(toLower(word), isAlnumByte))
  {
    var lowered := toLower(word);
    var scanned := Scan(lowered, |lowered|, isAlnumByte);
    r := scanned.value;
  }

  /** The empty word and every one-byte word are palindromes. */
  lemma ShortWordsArePalindromes(w: seq<byte>, isAlnumByte: byte -> bool)
    requires |w| <= 1
    ensures IsPalindrome(Filter(w, isAlnumByte))
  {
    ShortIsOwnReverse(Filter(w, isAlnumByte));
  }

  /** "İ" (U+0130, bytes C4 B0) lower-cases to the single byte "i" (69): `palindrome` as written then
      indexes byte 1 of a one-byte string. */
  method DottedCapitalIPanics(isAlnumByte: byte -> bool, toLower: seq<byte> -> seq<byte>) returns (r: Option<bool>)
    requires toLower([0xC4, 0xB0]) == [0x69]
    ensures r == None
  {
    r := PalindromeAsWritten([0xC4, 0xB0], isAlnumByte, toLower);
  }

  /** "Ⱥa" (U+023A then "a", bytes C8 BA 61) lower-cases to "ⱥa" (E2 B1 A5 61), one byte longer:
      `palindrome` as written judges only "ⱥ", whose bytes hold one letter, and answers true. */
  method AlphaWithStrokeMisjudged(isAlnumByte: byte -> bool, toLower: seq<byte> -> seq<byte>) returns (r: Option<bool>)
    requires toLower([0xC8, 0xBA, 0x61]) == [0xE2, 0xB1, 0xA5, 0x61]
    requires !isAlnumByte(0xB1) && !isAlnumByte(0xA5)
    ensures r == Some(true)
  {
    r := PalindromeAsWritten([0xC8, 0xBA, 0x61], isAlnumByte, toLower);
    var w: seq<byte> := [0xE2, 0xB1, 0xA5, 0x61];
    assert Letters(w, 0, 3, isAlnumByte) == Keep(0xE2, isAlnumByte);
    ShortIsOwnReverse(Keep(0xE2, isAlnumByte));
  }

  /** The corrected walk reads all of "ⱥa": the letters "â" (E2) and "a" (61) differ, so it answers false. */
  method AlphaWithStrokeIsNotPalindrome(isAlnumByte: byte -> bool, toLower: seq<byte> -> seq<byte>) returns (r: bool)
    requires toLower([0xC8, 0xBA, 0x61]) == [0xE2, 0xB1, 0xA5, 0x61]
    requires isAlnumByte(0xE2) && !isAlnumByte(0xB1) && !isAlnumByte(0xA5) && isAlnumByte(0x61)
    ensures !r
  {
    r := Palindrome([0xC8, 0xBA, 0x61], isAlnumByte, toLower);
    var w: seq<byte> := [0xE2, 0xB1, 0xA5, 0x61];
    assert Letters(w, 0, 3, isAlnumByte) == [0xE2];
    assert Filter(w, isAlnumByte) == [0xE2, 0x61];
    assert Reverse([0xE2, 0x61])[0] == 0x61;
  }

  /** The corrected walk answers the same word: "i" is a palindrome. */
  method DottedCapitalIIsPalindrome(isAlnumByte: byte -> bool, toLower: seq<byte> -> seq<byte>) returns (r: bool)
    requires toLower([0xC4, 0xB0]) == [0x69]
    ensures r
  {
    r := Palindrome([0xC4, 0xB0], isAlnumByte, toLower);
    ShortWordsArePalindromes([0x69], isAlnumByte);
  }
}

=== FILE: seqs.dfy ===
/** Small facts about concatenation and slicing, each proved on its own so that the proofs using them do
    not have to rediscover them by extensionality. */
module Seqs {
  lemma AppendAssoc<T>(a: seq<T>, b: seq<T>, c: seq<T>)
    ensures a + (b + c) == a + b + c
  {
  }

  lemma AppendEmpty<T>(a: seq<T>)
    ensures a + [] == a && [] + a == a
  {
  }

  lemma Rejoin<T>(s: seq<T>, a: nat)
    requires a <= |s|
    ensures s[..a] + s[a..] == s
  {
  }

  lemma Whole<T>(s: seq<T>)
    ensures s[..|s|] == s && s[|s|..] == [] && s[0..|s|] == s
  {
  }

  lemma FromZero<T>(s: seq<T>, n: nat)
    requires n <= |s|
    ensures s[0..n] == s[..n]
  {
  }

  /** The halves of a concatenation. */
  lemma Halves<T>(p: seq<T>, q: seq<T>)
    ensures (p + q)[..|p|] == p && (p + q)[|p|..] == q
  {
  }

  lemma TakeAppend<T>(p: seq<T>, q: seq<T>, k: nat)
    requires k <= |p|
    ensures (p + q)[..k] == p[..k]
  {
  }

  lemma DropAppend<T>(p: seq<T>, q: seq<T>, k: nat)
    requires k <= |p|
    ensures (p + q)[k..] == p[k..] + q
  {
  }

  lemma TakeSnoc<T>(s: seq<T>, i: nat)
    requires i < |s|
    ensures s[..i + 1] == s[..i] + [s[i]]
  {
  }

  lemma TakeSplit<T>(s: seq<T>, lo: nat, hi: nat)
    requires lo <= hi <= |s|
    ensures s[..hi] == s[..lo] + s[lo..hi]
  {
  }

  lemma SliceSnoc<T>(s: seq<T>, lo: nat, hi: nat)
    requires lo <= hi < |s|
    ensures s[lo..hi + 1] == s[lo..hi] + [s[hi]]
  {
  }

  lemma DropDrop<T>(s: seq<T>, a: nat, b: nat)
    requires a + b <= |s|
    ensures s[a..][b..] == s[a + b..]
  {
  }

  lemma SliceOfDrop<T>(s: seq<T>, d: nat, a: nat, b: nat)
    requires d + b <= |s| && a <= b
    ensures s[d..][a..b] == s[a + d..b + d]
  {
  }
}

=== FILE: sets.dfy ===
/** A fact about finite sets that the map-iteration loops need. */
module Sets {

  /** An element of a non-empty set, so a loop over a map's unvisited keys can always pick the next one. */
  lemma ElementOf<T>(s: set<T>) returns (x: T)
    requires s != {}
    ensures x in s
  {
    if forall y :: y !in s {
      assert false;
    }
    x :| x in s;
  }

  /** A sequence without repeated elements has as many distinct elements as entries. */
  lemma {:induction false} DistinctSize<T>(s: seq<T>)
    requires forall i, j :: 0 <= i < j < |s| ==> s[i] != s[j]
    ensures |set x | x in s| == |s|
  {
    if s != [] {
      var t := s[..|s| - 1];
      DistinctSize(t);
      assert (set x | x in s) == (set x | x in t) + {s[|s| - 1]};
      assert s[|s| - 1] !in (set x | x in t);
    }
  }
}

=== FILE: task_controller.dfy ===
/** task7's task handlers: every one admits only callers whose context role is the string "user", then
    reads the path or body, calls `TaskUsecase` over the task repository and maps its answer to a status.
    The calls recorded are those that reach the repository. */
module TaskController {
  import opened Outcomes
  import opened Http
  import opened Domain
  import TaskUsecases

  /** What the task handlers serialise directly. */
  datatype Payload = OneTask(task: Task) | TaskList(tasks: seq<Task>)

  type Handling = Handled<Payload, TaskCall>

  const UserOnly: Response<Payload> := Response(StatusForbidden, MessageBody("user-only"))

  predicate Admitted(role: Option<CtxValue>) {
    HasRole(role, "user")
  }

  /** `CreateTask`: after the gate, 400 when the body does not bind, 400 "user id not found" when the
      middleware set no `user_id`, 500 when it is not a string; otherwise the usecase runs with that owner,
      and its error gives 500 while success gives 201 with the task as the repository filled it in. */
  function CreateTask(repo: TaskRepository, role: Option<CtxValue>, body: Bound<Task>, userId: Option<CtxValue>): (h: Handling)
    ensures !h.panicked && |h.writes| == 1
    ensures !Admitted(role) ==> h == Reply(UserOnly, [])
    ensures Admitted(role) && body.Malformed? ==> h == Reply(Response(StatusBadRequest, ErrorBody(body.error)), [])
    ensures Admitted(role) && body.Parsed? && userId.None? ==>
      h == Reply(Response(StatusBadRequest, ErrorBody("user id not found")), [])
    ensures Admitted(role) && body.Parsed? && userId == Some(NonString) ==>
      h == Reply(Response(StatusInternalServerError, ErrorBody("user ID is not a valid string")), [])
    ensures Admitted(role) && body.Parsed? && userId.Some? && userId.value.Str? ==>
      var o := TaskUsecases.CreateTask(repo, body.value, userId.value.s);
      h.calls == o.calls &&
      (o.result.err.Err? ==> h.writes == [Response(StatusInternalServerError, ErrorBody(o.result.err.message))]) &&
      (o.result.err.Nil? ==> h.writes == [Response(StatusCreated, Value(OneTask(o.result.record)))])
  {
    if !Admitted(role) then Reply(UserOnly, [])
    else match body
      case Malformed(e) => Reply(Response(StatusBadRequest, ErrorBody(e)), [])
      case Parsed(newTask) =>
        match userId
        case None => Reply(Response(StatusBadRequest, ErrorBody("user id not found")), [])
        case Some(NonString) => Reply(Response(StatusInternalServerError, ErrorBody("user ID is not a valid string")), [])
        case Some(Str(owner)) =>
          var o := TaskUsecases.CreateTask(repo, newTask, owner);
          if o.result.err.Err? then Reply(Response(StatusInternalServerError, ErrorBody(o.result.err.message)), o.calls)
          else Reply(Response(StatusCreated, Value(OneTask(o.result.record))), o.calls)
  }

  /** `GetTask`: after the gate, the task stored under the path ID with 200, or 400 with the error. */
  function GetTask(repo: TaskRepository, role: Option<CtxValue>, id: string): (h: Handling)
    ensures !h.panicked && |h.writes| == 1
    ensures !Admitted(role) ==> h == Reply(UserOnly, [])
    ensures Admitted(role) ==>
      h.calls == [GetCall(id)] &&
      h.writes == [match repo.get(id)
                   case Failure(m) => Response(StatusBadRequest, ErrorBody(m))
                   case Ok(t) => Response(StatusOK, Value(OneTask(t)))]
  {
    if !Admitted(role) then Reply(UserOnly, [])
    else
      var o := TaskUsecases.GetTask(repo, id);
      match o.result
      case Failure(m) => Reply(Response(StatusBadRequest, ErrorBody(m)), o.calls)
      case Ok(t) => Reply(Response(StatusOK, Value(OneTask(t))), o.calls)
  }

  /** `GetTasks`: after the gate, 404 when no `user_id` was set; the unchecked string assertion panics on a
      `user_id` that is not a string; otherwise the caller's tasks with 200, or 400 with the error. */
  function GetTasks(repo: TaskRepository, role: Option<CtxValue>, userId: Option<CtxValue>): (h: Handling)
    ensures !Admitted(role) ==> h == Reply(UserOnly, [])
    ensures Admitted(role) && userId.None? ==> h == Reply(Response(StatusNotFound, MessageBody("user id doesn't exsist")), [])
    ensures Admitted(role) && userId == Some(NonString) ==> h == Handled([], [], true)
    ensures Admitted(role) && userId.Some? && userId.value.Str? ==>
      h.calls == [ListCall(userId.value.s)] && !h.panicked &&
      h.writes == [match repo.list(userId.value.s)
                   case Failure(m) => Response(StatusBadRequest, ErrorBody(m))
                   case Ok(ts) => Response(StatusOK, Value(TaskList(ts)))]
  {
    if !Admitted(role) then Reply(UserOnly, [])
    else match userId
      case None => Reply(Response(StatusNotFound, MessageBody("user id doesn't exsist")), [])
      case Some(NonString) => Handled([], [], true)
      case Some(Str(owner)) =>
        var o := TaskUsecases.GetTasks(repo, owner);
        match o.result
        case Failure(m) => Reply(Response(StatusBadRequest, ErrorBody(m)), o.calls)
        case Ok(ts) => Reply(Response(StatusOK, Value(TaskList(ts))), o.calls)
  }

  /** `UpdateTask`: after the gate, 400 when the body does not bind; otherwise the repository is asked to
      write the bound task under the path ID (the caller's `user_id` plays no part), with 400 on error and
      200 echoing the bound task. */
  function UpdateTask(repo: TaskRepository, role: Option<CtxValue>, id: string, body: Bound<Task>): (h: Handling)
    ensures !h.panicked && |h.writes| == 1
    ensures !Admitted(role) ==> h == Reply(UserOnly, [])
    ensures Admitted(role) && body.Malformed? ==> h == Reply(Response(StatusBadRequest, ErrorBody(body.error)), [])
    ensures Admitted(role) && body.Parsed? ==>
      h.calls == [UpdateCall(id, body.value)] &&
      h.writes == [if repo.update(id, body.value).Err? then Response(StatusBadRequest, ErrorBody(repo.update(id, body.value).message))
                   else Response(StatusOK, Value(OneTask(body.value)))]
  {
    if !Admitted(role) then Reply(UserOnly, [])
    else match body
      case Malformed(e) => Reply(Response(StatusBadRequest, ErrorBody(e)), [])
      case Parsed(updated) =>
        var o := TaskUsecases.UpdateTask(repo, id, updated);
        match o.result
        case Err(m) => Reply(Response(StatusBadRequest, ErrorBody(m)), o.calls)
        case Nil => Reply(Response(StatusOK, Value(OneTask(updated))), o.calls)
  }

  /** `RemoveTask`: after the gate, the repository is asked to delete the path ID (again without the
      caller's identity), with 400 on error and 200 "task removed". */
  function RemoveTask(repo: TaskRepository, role: Option<CtxValue>, id: string): (h: Handling)
    ensures !h.panicked && |h.writes| == 1
    ensures !Admitted(role) ==> h == Reply(UserOnly, [])
    ensures Admitted(role) ==>
      h.calls == [RemoveCall(id)] &&
      h.writes == [if repo.remove(id).Err? then Response(StatusBadRequest, ErrorBody(repo.remove(id).message))
                   else Response(StatusOK, MessageBody("task removed"))]
  {
    if !Admitted(role) then Reply(UserOnly, [])
    else
      var o := TaskUsecases.RemoveTask(repo, id);
      match o.result
      case Err(m) => Reply(Response(StatusBadRequest, ErrorBody(m)), o.calls)
      case Nil => Reply(Response(StatusOK, MessageBody("task removed")), o.calls)
  }

  /** The gate refuses admins as well as anonymous callers: for a role other than the string "user", every
      handler answers 403 "user-only" and nothing reaches the repository. */
  lemma OnlyUsersReachTasks(repo: TaskRepository, role: Option<CtxValue>, id: string, body: Bound<Task>, userId: Option<CtxValue>)
    requires !Admitted(role)
    ensures CreateTask(repo, role, body, userId) == GetTask(repo, role, id) == GetTasks(repo, role, userId)
         == UpdateTask(repo, role, id, body) == RemoveTask(repo, role, id) == Reply(UserOnly, [])
  {
  }

  /** An admin is refused like anyone else. */
  lemma AdminIsNotAUser()
    ensures !Admitted(Some(Str("admin")))
  {
    assert |"admin"| != |"user"|;
  }

  /** A task missing a required field is refused with 500 "incomplete information" before the
      repository is reached. */
  lemma IncompleteTaskIsServerError(repo: TaskRepository, newTask: Task, owner: string)
    requires !TaskUsecases.Complete(newTask)
    ensures CreateTask(repo, Some(Str("user")), Parsed(newTask), Some(Str(owner)))
         == Reply(Response(StatusInternalServerError, ErrorBody("incomplete information")), [])
  {
  }
}

=== FILE: task_handlers.dfy ===
/** The HTTP handlers of the task API (task4): each parses the `:id` path parameter with `strconv.Atoi`,
    consults or changes the task store, and writes one JSON response. */
module TaskHandlers {
  import opened Outcomes
  import opened Http
  import opened TaskStore
  import Decimal

  /** What a handler serialises directly: one task, or the whole map. */
  datatype Payload = OneTask(task: Task) | AllTasks(tasks: map<int, Task>)

  type Reply = Response<Payload>

  const InvalidId: Reply := Response(StatusBadRequest, ErrorBody("Invalid task ID"))

  const TaskNotFound: Reply := Response(StatusNotFound, ErrorBody("Task not found"))

  /** The partial update: a non-empty title, description or status in the patch replaces the stored one;
      an empty one keeps it. The ID and due date always stay those of the stored task. */
  function Merge(existing: Task, patch: Task): (merged: Task)
    ensures merged.id == existing.id && merged.dueDate == existing.dueDate
    ensures patch.title != "" ==> merged.title == patch.title
    ensures patch.title == "" ==> merged.title == existing.title
    ensures patch.description != "" ==> merged.description == patch.description
    ensures patch.description == "" ==> merged.description == existing.description
    ensures patch.status != "" ==> merged.status == patch.status
    ensures patch.status == "" ==> merged.status == existing.status
  {
    var t := if patch.title != "" then existing.(title := patch.title) else existing;
    var d := if patch.description != "" then t.(description := patch.description) else t;
    if patch.status != "" then d.(status := patch.status) else d
  }

  /** Applying the same patch twice is the same as applying it once. */
  lemma MergeIdempotent(existing: Task, patch: Task)
    ensures Merge(Merge(existing, patch), patch) == Merge(existing, patch)
  {
  }

  /** A patch whose three text fields are empty leaves the task as it was, whatever its ID and date. */
  lemma MergeEmptyPatch(existing: Task, patch: Task)
    requires patch.title == "" && patch.description == "" && patch.status == ""
    ensures Merge(existing, patch) == existing
  {
  }

  /** Patch `later` laid over patch `earlier`: the later one's non-empty fields win. */
  function Overlay(earlier: Task, later: Task): (p: Task)
    ensures p.title == "" <==> earlier.title == "" && later.title == ""
    ensures p.description == "" <==> earlier.description == "" && later.description == ""
    ensures p.status == "" <==> earlier.status == "" && later.status == ""
  {
    Merge(earlier, later)
  }

  /** Two successive updates equal one update with the overlaid patch. */
  lemma MergeComposes(existing: Task, earlier: Task, later: Task)
    ensures Merge(Merge(existing, earlier), later) == Merge(existing, Overlay(earlier, later))
  {
  }

  /** `GET /tasks`: the whole map with 200. */
  method GetTasks(store: Store) returns (reply: Reply)
    ensures reply.status == StatusOK && reply.body.Value? && reply.body.payload.AllTasks?
    ensures reply.body.payload.tasks == store.tasks
  {
    var all := store.GetAllTasks();
    reply := Response(StatusOK, Value(AllTasks(all)));
  }

  /** `GET /tasks/:id`: 400 for a non-integer ID, the task with 200 when stored, 404 otherwise. */
  method GetTaskByID(store: Store, idParam: string) returns (reply: Reply)
    ensures Decimal.Atoi(idParam).None? ==> reply == InvalidId
    ensures Decimal.Atoi(idParam).Some? && Decimal.Atoi(idParam).value in store.tasks ==>
      reply == Response(StatusOK, Value(OneTask(store.tasks[Decimal.Atoi(idParam).value])))
    ensures Decimal.Atoi(idParam).Some? && Decimal.Atoi(idParam).value !in store.tasks ==> reply == TaskNotFound
  {
    var parsed := Decimal.Atoi(idParam);
    if parsed.None? {
      return InvalidId;
    }
    var task, found := store.GetTask(parsed.value);
    if found {
      reply := Response(StatusOK, Value(OneTask(task)));
    } else {
      reply := TaskNotFound;
    }
  }

  /** `PUT /tasks/:id`: the ID is parsed first, then the body; an absent task gives 404 without any write;
      otherwise the merged task is stored under the ID and returned. The counter never moves and the
      store stays valid, because only a key already present is written. */
  method UpdateTask(store: Store, idParam: string, body: Bound<Task>) returns (reply: Reply)
    modifies store
    ensures store.count == old(store.count)
    ensures old(store.Valid()) ==> store.Valid()
    ensures Decimal.Atoi(idParam).None? ==> reply == InvalidId && store.tasks == old(store.tasks)
    ensures Decimal.Atoi(idParam).Some? && body.Malformed? ==>
      reply == Response(StatusBadRequest, ErrorBody(body.error)) && store.tasks == old(store.tasks)
    ensures Decimal.Atoi(idParam).Some? && body.Parsed? && Decimal.Atoi(idParam).value !in old(store.tasks) ==>
      reply == TaskNotFound && store.tasks == old(store.tasks)
    ensures Decimal.Atoi(idParam).Some? && body.Parsed? && Decimal.Atoi(idParam).value in old(store.tasks) ==>
      var id := Decimal.Atoi(idParam).value;
      var merged := Merge(old(store.tasks)[id], body.value);
      store.tasks == old(store.tasks)[id := merged] && reply == Response(StatusOK, Value(OneTask(merged)))
  {
    var parsed := Decimal.Atoi(idParam);
    if parsed.None? {
      return InvalidId;
    }
    if body.Malformed? {
      return Response(StatusBadRequest, ErrorBody(body.error));
    }
    var task, found := store.GetTask(parsed.value);
    if !found {
      return TaskNotFound;
    }
    var merged := Merge(task, body.value);
    store.UpdateTask(parsed.value, merged);
    reply := Response(StatusOK, Value(OneTask(merged)));
  }

  /** `DELETE /tasks/:id`: 400 for a non-integer ID; otherwise the key is removed, with 200 "Task removed"
      when it was present and 404 (under "message", not "error") when it was not. */
  method DeleteTask(store: Store, idParam: string) returns (reply: Reply)
    modifies store
    ensures store.count == old(store.count)
    ensures old(store.Valid()) ==> store.Valid()
    ensures Decimal.Atoi(idParam).None? ==> reply == InvalidId && store.tasks == old(store.tasks)
    ensures Decimal.Atoi(idParam).Some? ==>
      var id := Decimal.Atoi(idParam).value;
      store.tasks == old(store.tasks) - {id} &&
      reply == if id in old(store.tasks) then Response(StatusOK, MessageBody("Task removed"))
               else Response(StatusNotFound, MessageBody("Task not found"))
  {
    var parsed := Decimal.Atoi(idParam);
    if parsed.None? {
      return InvalidId;
    }
    var deleted := store.DeleteTask(parsed.value);
    if !deleted {
      return Response(StatusNotFound, MessageBody("Task not found"));
    }
    reply := Response(StatusOK, MessageBody("Task removed"));
  }

  /** `POST /tasks`: a malformed body gives 400 and no write. Otherwise the bound task is stored under the
      next ID, and the response carries that ID and the current time as due date; the stored copy keeps
      the due date the client sent. */
  method CreateTask(store: Store, body: Bound<Task>, now: Time) returns (reply: Reply)
    requires store.Valid()
    modifies store
    ensures store.Valid()
    ensures body.Malformed? ==>
      reply == Response(StatusBadRequest, ErrorBody(body.error)) &&
      store.tasks == old(store.tasks) && store.count == old(store.count)
    ensures body.Parsed? ==>
      var id := old(store.count) + 1;
      id !in old(store.tasks) && store.count == id &&
      store.tasks == old(store.tasks)[id := body.value.(id := id)] &&
      reply == Response(StatusCreated, Object([("task", Data(OneTask(body.value.(id := id, dueDate := now))))]))
  {
    if body.Malformed? {
      return Response(StatusBadRequest, ErrorBody(body.error));
    }
    var tid := store.CreateTask(body.value);
    var answered := body.value.(dueDate := now).(id := tid);
    reply := Response(StatusCreated, Object([("task", Data(OneTask(answered)))]));
  }

  /** Deleting the same well-formed ID twice: the second attempt always finds nothing. */
  method DeleteTwice(store: Store, idParam: string) returns (first: Reply, second: Reply)
    requires Decimal.Atoi(idParam).Some?
    modifies store
    ensures second == Response(StatusNotFound, MessageBody("Task not found"))
    ensures first.status == StatusOK <==> Decimal.Atoi(idParam).value in old(store.tasks)
  {
    first := DeleteTask(store, idParam);
    second := DeleteTask(store, idParam);
  }
}

=== FILE: task_store.dfy ===
/** The in-memory task store behind the task API: a map from integer IDs to tasks and a counter that
    hands out the IDs. In the source both are package-level variables guarded by one mutex. */
module TaskStore {

  /** An instant; 0 stands for Go's zero `time.Time`. */
  type Time = int

  datatype Task = Task(id: int, title: string, description: string, dueDate: Time, status: string)

  /** The zero value GetTask returns beside `false`. */
  const ZeroTask := Task(0, "", "", 0, "")

  class Store {
    var tasks: map<int, Task>
    var count: int

    constructor ()
      ensures tasks == map[] && count == 0
    {
      tasks, count := map[], 0;
    }

    /** Every stored key is an ID the counter has already handed out, so the next ID is fresh. */
    ghost predicate Valid()
      reads this
    {
      0 <= count && forall id :: id in tasks ==> 1 <= id <= count
    }

    /** The whole current map. */
    function GetAllTasks(): (r: map<int, Task>)
      reads this
      ensures r.Keys == tasks.Keys && forall id :: id in r ==> r[id] == tasks[id]
    {
      tasks
    }

    /** `(task, true)` for a stored ID, `(zero task, false)` otherwise. */
    method GetTask(id: int) returns (task: Task, found: bool)
      ensures found <==> id in tasks
      ensures task == if id in tasks then tasks[id] else ZeroTask
    {
      if id in tasks {
        task, found := tasks[id], true;
      } else {
        task, found := ZeroTask, false;
      }
    }

    /** An upsert: the task is written under `id` whether or not the key existed. Validity survives exactly
        when `id` is an ID already handed out. */
    method UpdateTask(id: int, updated: Task)
      modifies this
      ensures tasks == old(tasks)[id := updated] && count == old(count)
      ensures old(Valid()) ==> (Valid() <==> 1 <= id <= count)
    {
      tasks := tasks[id := updated];
      assert id in tasks;
    }

    /** Removes a stored ID and reports whether it was there. */
    method DeleteTask(id: int) returns (deleted: bool)
      modifies this
      ensures deleted <==> id in old(tasks)
      ensures tasks == old(tasks) - {id} && count == old(count)
      ensures old(Valid()) ==> Valid()
    {
      if id in tasks {
        tasks := tasks - {id};
        return true;
      }
      return false;
    }

    /** Increments the counter first, so the first ID is 1; stores the task under the new ID with that ID
        and returns it. */
    method CreateTask(newTask: Task) returns (id: int)
      requires Valid()
      modifies this
      ensures Valid()
      ensures id == old(count) + 1 == count
      ensures id !in old(tasks)
      ensures tasks == old(tasks)[id := newTask.(id := id)]
    {
      count := count + 1;
      var stored := newTask.(id := count);
      tasks := tasks[count := stored];
      return count;
    }
  }

  /** IDs handed out by successive creations are strictly increasing, whatever is deleted in between:
      the counter never goes down. */
  method CreationsNeverReuse(store: Store, a: Task, b: Task) returns (first: int, second: int)
    requires store.Valid()
    modifies store
    ensures first < second
    ensures first !in store.tasks || store.tasks[first] == a.(id := first)
    ensures second in store.tasks && store.tasks[second] == b.(id := second)
  {
    first := store.CreateTask(a);
    var _ := store.DeleteTask(first);
    second := store.CreateTask(b);
  }
}

=== FILE: task_usecases.dfy ===
/** `TaskUsecase` of the layered service. task7 and task8 carry the same file apart from the package of the
    repository interface: creation checks the three text fields, and everything else is handed to the
    repository untouched. */
module TaskUsecases {
  import opened Outcomes
  import opened Domain

  const Incomplete := "incomplete information"

  /** Title, description and status are all non-empty. */
  predicate Complete(t: Task) {
    t.description != "" && t.status != "" && t.title != ""
  }

  /** `CreateTask(newtask, userid)`: an incomplete task is refused without touching the repository;
      otherwise the repository's answer (and whatever it filled into the task) is the answer. */
  function CreateTask(repo: TaskRepository, newTask: Task, owner: string): (o: Traced<Saved<Task>, TaskCall>)
    ensures !Complete(newTask) <==> o.calls == []
    ensures !Complete(newTask) ==> o.result == Saved(newTask, Err(Incomplete))
    ensures Complete(newTask) ==> o.calls == [CreateCall(newTask, owner)] && o.result == repo.create(newTask, owner)
  {
    if newTask.description == "" || newTask.status == "" || newTask.title == "" then
      Traced(Saved(newTask, Err(Incomplete)), [])
    else
      Traced(repo.create(newTask, owner), [CreateCall(newTask, owner)])
  }

  function GetTask(repo: TaskRepository, id: string): (o: Traced<Result<Task>, TaskCall>)
    ensures o.calls == [GetCall(id)] && o.result == repo.get(id)
  {
    Traced(repo.get(id), [GetCall(id)])
  }

  function GetTasks(repo: TaskRepository, owner: string): (o: Traced<Result<seq<Task>>, TaskCall>)
    ensures o.calls == [ListCall(owner)] && o.result == repo.list(owner)
  {
    Traced(repo.list(owner), [ListCall(owner)])
  }

  /** Updating takes only the task's ID: whoever asks, the repository is told to write it. */
  function UpdateTask(repo: TaskRepository, id: string, updated: Task): (o: Traced<Error, TaskCall>)
    ensures o.calls == [UpdateCall(id, updated)] && o.result == repo.update(id, updated)
  {
    Traced(repo.update(id, updated), [UpdateCall(id, updated)])
  }

  /** Removing takes only the task's ID, like updating. */
  function RemoveTask(repo: TaskRepository, id: string): (o: Traced<Error, TaskCall>)
    ensures o.calls == [RemoveCall(id)] && o.result == repo.remove(id)
  {
    Traced(repo.remove(id), [RemoveCall(id)])
  }

  /** No incomplete task ever reaches the repository, and an incomplete one is always refused. */
  lemma RepositorySeesOnlyCompleteTasks(repo: TaskRepository, newTask: Task, owner: string)
    ensures forall c :: c in CreateTask(repo, newTask, owner).calls ==> c.CreateCall? && Complete(c.task)
    ensures CreateTask(repo, newTask, owner).result.err.Nil? ==> Complete(newTask)
  {
  }

  /** A complete task whose insertion the repository accepts is created, with exactly one repository call
      carrying the given owner. */
  lemma CompleteTaskIsCreated(repo: TaskRepository, newTask: Task)
    requires newTask.title == "Sample Task" && newTask.description == "This is a sample task"
    requires newTask.status == "pending"
    requires repo.create(newTask, "userID").err == Nil
    ensures CreateTask(repo, newTask, "userID").result.err == Nil
    ensures CreateTask(repo, newTask, "userID").calls == [CreateCall(newTask, "userID")]
  {
  }
}

=== FILE: user_controllers.dfy ===
/** The user handlers of the layered service (task7 and task8): each maps the bound request body, the role
    the authentication middleware put in the context, and the usecase's answer to the JSON it writes. */
module UserControllers {
  import opened Outcomes
  import opened Http
  import opened Domain
  import UserUsecases

  /** What the user handlers serialise directly. */
  datatype Payload = OneUser(user: User) | AllUsers(users: seq<User>)

  type Handling = Handled<Payload, ServiceCall>

  const AdminOnly: Response<Payload> := Response(StatusForbidden, MessageBody("admin-only"))

  /** task8's `Register`: a body that does not bind gives 400; an empty email or role gives 400
      "incomplete information" without calling the usecase; a usecase error gives 500; otherwise 201. */
  function Register8(svc: UserService, body: Bound<User>): (h: Handling)
    ensures !h.panicked && |h.writes| == 1
    ensures body.Malformed? ==> h == Reply(Response(StatusBadRequest, ErrorBody(body.error)), [])
    ensures body.Parsed? && (body.value.email == "" || body.value.role == "") ==>
      h == Reply(Response(StatusBadRequest, ErrorBody("incomplete information")), [])
    ensures body.Parsed? && body.value.email != "" && body.value.role != "" ==>
      h.calls == [RegisterUser(body.value)] &&
      (svc.register(body.value).err.Err? ==>
         h.writes == [Response(StatusInternalServerError, ErrorBody(svc.register(body.value).err.message))]) &&
      (svc.register(body.value).err.Nil? ==>
         h.writes == [Response(StatusCreated, MessageBody("registered successfully"))])
  {
    match body
    case Malformed(e) => Reply(Response(StatusBadRequest, ErrorBody(e)), [])
    case Parsed(user) =>
      if user.email == "" || user.role == "" then
        Reply(Response(StatusBadRequest, ErrorBody("incomplete information")), [])
      else
        var saved := svc.register(user);
        if saved.err.Err? then Reply(Response(StatusInternalServerError, ErrorBody(saved.err.message)), [RegisterUser(user)])
        else Reply(Response(StatusCreated, MessageBody("registered successfully")), [RegisterUser(user)])
  }

  /** task8's `Login`: 400 for a body that does not bind or an empty email (the usecase is not called);
      401 with the error and the empty token when the usecase fails; 200 with the token otherwise. An
      empty token without an error makes the handler read the message of a nil error, which panics. */
  function Login8(svc: UserService, body: Bound<User>): (h: Handling)
    ensures body.Malformed? ==> h == Reply(Response(StatusBadRequest, ErrorBody(body.error)), [])
    ensures body.Parsed? && body.value.email == "" ==>
      h == Reply(Response(StatusBadRequest, ErrorBody("incomplete information")), [])
    ensures body.Parsed? && body.value.email != "" ==>
      var answer := svc.login(body.value);
      h.calls == [LoginUser(body.value)] &&
      (answer.Failure? ==>
         h.writes == [Response(StatusUnauthorized, Object([("error", Text(answer.message)), ("token", Text(""))]))] && !h.panicked) &&
      (answer == Ok("") ==> h.writes == [] && h.panicked) &&
      (answer.Ok? && answer.value != "" ==>
         h.writes == [Response(StatusOK, Object([("message", Text("user logged in successfully")), ("token", Text(answer.value))]))] &&
         !h.panicked)
  {
    match body
    case Malformed(e) => Reply(Response(StatusBadRequest, ErrorBody(e)), [])
    case Parsed(user) =>
      if user.email == "" then Reply(Response(StatusBadRequest, ErrorBody("incomplete information")), [])
      else
        var calls := [LoginUser(user)];
        match svc.login(user)
        case Failure(m) => Reply(Response(StatusUnauthorized, Object([("error", Text(m)), ("token", Text(""))])), calls)
        case Ok(token) =>
          if token == "" then Handled([], calls, true)
          else Reply(Response(StatusOK, Object([("message", Text("user logged in successfully")), ("token", Text(token))])), calls)
  }

  /** task7's `Register`: no field checks here; 400 when the body does not bind, 500 on a usecase error, and
      201 with the user as the usecase left it (with its new ID; the hashed password is never serialised). */
  function Register7(svc: UserService, body: Bound<User>): (h: Handling)
    ensures !h.panicked && |h.writes| == 1
    ensures body.Malformed? ==> h == Reply(Response(StatusBadRequest, ErrorBody(body.error)), [])
    ensures body.Parsed? ==>
      var saved := svc.register(body.value);
      h.calls == [RegisterUser(body.value)] &&
      (saved.err.Err? ==> h.writes == [Response(StatusInternalServerError, ErrorBody(saved.err.message))]) &&
      (saved.err.Nil? ==>
         h.writes == [Response(StatusCreated, Object([("message", Text("registered successfully")), ("user", Data(OneUser(saved.record)))]))])
  {
    match body
    case Malformed(e) => Reply(Response(StatusBadRequest, ErrorBody(e)), [])
    case Parsed(user) =>
      var saved := svc.register(user);
      if saved.err.Err? then Reply(Response(StatusInternalServerError, ErrorBody(saved.err.message)), [RegisterUser(user)])
      else Reply(Response(StatusCreated, Object([("message", Text("registered successfully")), ("user", Data(OneUser(saved.record)))])),
                 [RegisterUser(user)])
  }

  /** task7's `Login`: 400 when the body does not bind; 401 with the error on a usecase failure; 200 with the
      token otherwise; an empty token without an error panics as in task8. */
  function Login7(svc: UserService, body: Bound<User>): (h: Handling)
    ensures body.Malformed? ==> h == Reply(Response(StatusBadRequest, ErrorBody(body.error)), [])
    ensures body.Parsed? ==>
      var answer := svc.login(body.value);
      h.calls == [LoginUser(body.value)] &&
      (answer.Failure? ==> h.writes == [Response(StatusUnauthorized, ErrorBody(answer.message))] && !h.panicked) &&
      (answer == Ok("") ==> h.writes == [] && h.panicked) &&
      (answer.Ok? && answer.value != "" ==>
         h.writes == [Response(StatusOK, Object([("message", Text("user logged in successfully")), ("token", Text(answer.value))]))] &&
         !h.panicked)
  {
    match body
    case Malformed(e) => Reply(Response(StatusBadRequest, ErrorBody(e)), [])
    case Parsed(user) =>
      var calls := [LoginUser(user)];
      match svc.login(user)
      case Failure(m) => Reply(Response(StatusUnauthorized, ErrorBody(m)), calls)
      case Ok(token) =>
        if token == "" then Handled([], calls, true)
        else Reply(Response(StatusOK, Object([("message", Text("user logged in successfully")), ("token", Text(token))])), calls)
  }

  /** `GetUser` (task7 and task8): unless the context role is the string "admin", 403 "admin-only" echoing the
      role, and the usecase is not called; otherwise 400 on a usecase error and 200 with the user. */
  function GetUser(svc: UserService, role: Option<CtxValue>, email: string): (h: Handling)
    ensures !h.panicked && |h.writes| == 1
    ensures !HasRole(role, "admin") <==> h.calls == []
    ensures !HasRole(role, "admin") ==>
      h.writes == [Response(StatusForbidden, Object([("message", Text("admin-only")), ("role", Echo(role))]))]
    ensures HasRole(role, "admin") ==>
      h.calls == [GetUserBy(email)] &&
      h.writes == [match svc.getUser(email)
                   case Failure(m) => Response(StatusBadRequest, ErrorBody(m))
                   case Ok(u) => Response(StatusOK, Value(OneUser(u)))]
  {
    if !HasRole(role, "admin") then
      Reply(Response(StatusForbidden, Object([("message", Text("admin-only")), ("role", Echo(role))])), [])
    else
      match svc.getUser(email)
      case Failure(m) => Reply(Response(StatusBadRequest, ErrorBody(m)), [GetUserBy(email)])
      case Ok(u) => Reply(Response(StatusOK, Value(OneUser(u))), [GetUserBy(email)])
  }

  /** The usecase's answer to a user listing, as the handler writes it. */
  function ListingReply(answer: Result<seq<User>>): (r: Response<Payload>)
    ensures answer.Failure? <==> r.status == StatusBadRequest
    ensures answer.Ok? ==> r == Response(StatusOK, Value(AllUsers(answer.value)))
  {
    match answer
    case Failure(m) => Response(StatusBadRequest, ErrorBody(m))
    case Ok(users) => Response(StatusOK, Value(AllUsers(users)))
  }

  /** `GetUsers` (task7 and task8) as written: the 403 for a caller who is not an admin is written, but the
      handler does not return, so the usecase is called and its answer is written after it. */
  function GetUsersAsWritten(svc: UserService, role: Option<CtxValue>): (h: Handling)
    ensures !h.panicked && h.calls == [ListUsers]
    ensures HasRole(role, "admin") ==> h.writes == [ListingReply(svc.getUsers)]
    ensures !HasRole(role, "admin") ==> h.writes == [AdminOnly, ListingReply(svc.getUsers)]
  {
    var gate := if HasRole(role, "admin") then [] else [AdminOnly];
    Handled(gate + [ListingReply(svc.getUsers)], [ListUsers], false)
  }

  /** `GetUsers` as evidently intended: the 403 ends the request, as in `GetUser`. */
  function GetUsers(svc: UserService, role: Option<CtxValue>): (h: Handling)
    ensures !h.panicked && |h.writes| == 1
    ensures !HasRole(role, "admin") <==> h.calls == []
    ensures !HasRole(role, "admin") ==> h.writes == [AdminOnly]
    ensures HasRole(role, "admin") ==> h.calls == [ListUsers] && h.writes == [ListingReply(svc.getUsers)]
  {
    if !HasRole(role, "admin") then Reply(AdminOnly, [])
    else Reply(ListingReply(svc.getUsers), [ListUsers])
  }

  /** The as-written listing leaks: a caller without the admin role is sent status 403, yet the usecase is
      called and, when it succeeds, the full user list follows in the same response body. */
  lemma NonAdminReceivesUserList(svc: UserService, role: Option<CtxValue>)
    requires !HasRole(role, "admin") && svc.getUsers.Ok?
    ensures SentStatus(GetUsersAsWritten(svc, role).writes) == Some(StatusForbidden)
    ensures Response(StatusOK, Value(AllUsers(svc.getUsers.value))) in GetUsersAsWritten(svc, role).writes
    ensures GetUsersAsWritten(svc, role).calls == [ListUsers]
  {
    assert GetUsersAsWritten(svc, role).writes[1] == Response(StatusOK, Value(AllUsers(svc.getUsers.value)));
  }

  /** Once the gate returns, the listing reaches the usecase only for an admin, and for an admin it agrees
      with the handler as written. */
  lemma GetUsersOnlyForAdmins(svc: UserService, role: Option<CtxValue>)
    ensures GetUsers(svc, role).calls != [] ==> HasRole(role, "admin")
    ensures HasRole(role, "admin") ==> GetUsers(svc, role) == GetUsersAsWritten(svc, role)
  {
  }

  /** Role checks compare contents and type: the admin listing is refused to a missing role, to "Admin", to
      the "user" role and to a non-string value. */
  lemma AdminGateRefuses(svc: UserService, email: string)
    ensures GetUser(svc, None, email).calls == [] && GetUser(svc, Some(Str("Admin")), email).calls == []
    ensures GetUser(svc, Some(Str("user")), email).calls == [] && GetUser(svc, Some(NonString), email).calls == []
    ensures GetUser(svc, Some(Str("admin")), email).calls == [GetUserBy(email)]
  {
    assert !HasRole(Some(Str("Admin")), "admin") by { assert "Admin"[0] != "admin"[0]; }
    assert !HasRole(Some(Str("user")), "admin") by { assert |"user"| != |"admin"|; }
  }

  /** task8 end to end: a repository refusal carrying "invalid email or password" (the text task7's
      repository gives for an unknown email or a wrong password) reaches the client as 401 with that message
      and an empty token, and no token is minted. */
  lemma WrongCredentialsAre401(crypto: Crypto, repo: UserRepository, user: User)
    requires user.email != "" && repo.login(user) == Failure("invalid email or password")
    ensures Login8(UserUsecases.Service8(crypto, repo), Parsed(user)).writes ==
      [Response(StatusUnauthorized, Object([("error", Text("invalid email or password")), ("token", Text(""))]))]
    ensures UserUsecases.Login8(crypto, repo, user).calls == [LoginCall(user)]
  {
  }

  /** task8 end to end: correct credentials for an account stored with role "user" give 200 with the token
      minted for that role. */
  lemma RightCredentialsAre200(crypto: Crypto, repo: UserRepository, user: User)
    requires user.email != "" && repo.login(user).Ok? && repo.login(user).value.role == "user"
    requires crypto.newToken(user.id, user.email, "user") == Ok("token")
    ensures Login8(UserUsecases.Service8(crypto, repo), Parsed(user)).writes ==
      [Response(StatusOK, Object([("message", Text("user logged in successfully")), ("token", Text("token"))]))]
  {
  }

  /** task7 end to end: the controller does not check fields itself, but an empty role still fails, in the
      usecase, and is reported as 500 without hashing or storing anything. */
  lemma Register7EmptyRoleIs500(crypto: Crypto, repo: UserRepository, user: User)
    requires user.role == ""
    ensures Register7(UserUsecases.Service7(crypto, repo), Parsed(user)).writes ==
      [Response(StatusInternalServerError, ErrorBody("incomplete information"))]
    ensures UserUsecases.Register(crypto, repo, user).calls == []
  {
  }
}

=== FILE: user_usecases.dfy ===
/** `UserUsecase` of the layered service. Registration is the same in task7 and task8: check the required
    fields, hash the password into the user record, hand the record to the repository. The two versions
    differ in where the token's role comes from at login. */
module UserUsecases {
  import opened Outcomes
  import opened Domain

  const Incomplete := "incomplete information"

  /** `Register(user)`: "incomplete information" when the email or the role is empty, with no other call;
      a hashing error is returned before the repository is reached; otherwise the user with the hashed
      password goes to the repository, whose error is returned unchanged. The record in the result is
      the caller's user after the call. */
  function Register(crypto: Crypto, repo: UserRepository, user: User): (o: Traced<Saved<User>, UserCall>)
    ensures user.email == "" || user.role == "" ==> o == Traced(Saved(user, Err(Incomplete)), [])
    ensures user.email != "" && user.role != "" && crypto.hash(user.password).Failure? ==>
      o == Traced(Saved(user, Err(crypto.hash(user.password).message)), [HashCall(user.password)])
    ensures user.email != "" && user.role != "" && crypto.hash(user.password).Ok? ==>
      var hashed := user.(password := crypto.hash(user.password).value);
      o == Traced(repo.register(hashed), [HashCall(user.password), RegisterCall(hashed)])
  {
    if user.email == "" || user.role == "" then
      Traced(Saved(user, Err(Incomplete)), [])
    else
      match crypto.hash(user.password)
      case Failure(m) => Traced(Saved(user, Err(m)), [HashCall(user.password)])
      case Ok(h) =>
        var hashed := user.(password := h);
        Traced(repo.register(hashed), [HashCall(user.password), RegisterCall(hashed)])
  }

  /** task8's `Login(user)`: a repository error is returned with an empty token and no token is minted;
      otherwise the token is minted from the request's ID and email and the role the repository found. */
  function Login8(crypto: Crypto, repo: UserRepository, user: User): (o: Traced<Result<string>, UserCall>)
    ensures repo.login(user).Failure? ==> o == Traced(Failure(repo.login(user).message), [LoginCall(user)])
    ensures repo.login(user).Ok? ==>
      var role := repo.login(user).value.role;
      o == Traced(crypto.newToken(user.id, user.email, role), [LoginCall(user), TokenCall(user.id, user.email, role)])
  {
    match repo.login(user)
    case Failure(m) => Traced(Failure(m), [LoginCall(user)])
    case Ok(stored) =>
      Traced(crypto.newToken(user.id, user.email, stored.role),
             [LoginCall(user), TokenCall(user.id, user.email, stored.role)])
  }

  /** task7's `Login(user)`: as task8's, except that the token's role is the one the request carried. */
  function Login7(crypto: Crypto, repo: UserRepository, user: User): (o: Traced<Result<string>, UserCall>)
    ensures repo.login(user).Failure? ==> o == Traced(Failure(repo.login(user).message), [LoginCall(user)])
    ensures repo.login(user).Ok? ==>
      o == Traced(crypto.newToken(user.id, user.email, user.role),
                  [LoginCall(user), TokenCall(user.id, user.email, user.role)])
  {
    match repo.login(user)
    case Failure(m) => Traced(Failure(m), [LoginCall(user)])
    case Ok(_) =>
      Traced(crypto.newToken(user.id, user.email, user.role),
             [LoginCall(user), TokenCall(user.id, user.email, user.role)])
  }

  /** Login as evidently intended: every claim of the token describes the stored account the credentials
      matched, never what the client put in the request. */
  function LoginIntended(crypto: Crypto, repo: UserRepository, user: User): (o: Traced<Result<string>, UserCall>)
    ensures repo.login(user).Failure? ==> o == Traced(Failure(repo.login(user).message), [LoginCall(user)])
    ensures repo.login(user).Ok? ==>
      var stored := repo.login(user).value;
      o == Traced(crypto.newToken(stored.id, stored.email, stored.role),
                  [LoginCall(user), TokenCall(stored.id, stored.email, stored.role)])
  {
    match repo.login(user)
    case Failure(m) => Traced(Failure(m), [LoginCall(user)])
    case Ok(stored) =>
      Traced(crypto.newToken(stored.id, stored.email, stored.role),
             [LoginCall(user), TokenCall(stored.id, stored.email, stored.role)])
  }

  function GetUser(repo: UserRepository, email: string): (o: Traced<Result<User>, UserCall>)
    ensures o == Traced(repo.get(email), [GetUserCall(email)])
  {
    Traced(repo.get(email), [GetUserCall(email)])
  }

  function GetUsers(repo: UserRepository): (o: Traced<Result<seq<User>>, UserCall>)
    ensures o == Traced(repo.all, [GetUsersCall])
  {
    Traced(repo.all, [GetUsersCall])
  }

  /** The usecase as task8's controllers call it. */
  function Service8(crypto: Crypto, repo: UserRepository): (s: UserService)
    ensures forall u :: s.register(u) == Register(crypto, repo, u).result
    ensures forall u :: s.login(u) == Login8(crypto, repo, u).result
  {
    UserService(u => Register(crypto, repo, u).result, u => Login8(crypto, repo, u).result,
                e => GetUser(repo, e).result, GetUsers(repo).result)
  }

  /** The usecase as task7's controllers call it. */
  function Service7(crypto: Crypto, repo: UserRepository): (s: UserService)
    ensures forall u :: s.register(u) == Register(crypto, repo, u).result
    ensures forall u :: s.login(u) == Login7(crypto, repo, u).result
  {
    UserService(u => Register(crypto, repo, u).result, u => Login7(crypto, repo, u).result,
                e => GetUser(repo, e).result, GetUsers(repo).result)
  }

  /** The repository never receives a plain-text password: whatever it is handed carries the hash of the
      password the client sent, and nothing reaches it when hashing fails or a field is missing. */
  lemma RepositoryNeverSeesPlaintext(crypto: Crypto, repo: UserRepository, user: User)
    ensures forall c :: c in Register(crypto, repo, user).calls && c.RegisterCall? ==>
      crypto.hash(user.password) == Ok(c.user.password) &&
      c.user == user.(password := c.user.password)
    ensures (exists c :: c in Register(crypto, repo, user).calls && c.RegisterCall?) <==>
      user.email != "" && user.role != "" && crypto.hash(user.password).Ok?
  {
    var o := Register(crypto, repo, user);
    if user.email != "" && user.role != "" && crypto.hash(user.password).Ok? {
      assert o.calls[1] in o.calls;
    }
  }

  /** A failed login never mints a token, in either version. */
  lemma FailedLoginMintsNothing(crypto: Crypto, repo: UserRepository, user: User)
    requires repo.login(user).Failure?
    ensures forall c :: c in Login8(crypto, repo, user).calls ==> !c.TokenCall?
    ensures forall c :: c in Login7(crypto, repo, user).calls ==> !c.TokenCall?
    ensures Login8(crypto, repo, user).result == Login7(crypto, repo, user).result == Failure(repo.login(user).message)
  {
  }

  /** task8's token carries the stored role whatever role the request claims. */
  lemma Login8RoleFromStore(crypto: Crypto, repo: UserRepository, user: User, claimed: string)
    requires repo.login(user).Ok? && repo.login(user.(role := claimed)) == repo.login(user)
    ensures Login8(crypto, repo, user.(role := claimed)).result == Login8(crypto, repo, user).result
    ensures forall c :: c in Login8(crypto, repo, user.(role := claimed)).calls && c.TokenCall? ==>
      c.role == repo.login(user).value.role
  {
  }

  /** task7 as written: a client whose stored account has role "user" and who sends "role": "admin" with
      correct credentials is minted an admin token. */
  lemma Login7TrustsClaimedRole(crypto: Crypto, repo: UserRepository, user: User)
    requires user.role == "admin"
    requires repo.login(user).Ok? && repo.login(user).value.role == "user"
    ensures TokenCall(user.id, user.email, "admin") in Login7(crypto, repo, user).calls
    ensures forall c :: c in Login7(crypto, repo, user).calls && c.TokenCall? ==> c.role != repo.login(user).value.role
  {
  }

  /** task7 and task8 as written: the token's user ID is the one in the request, which is the zero
      ObjectID when the client sends no `_id`, although the stored account has another. */
  lemma LoginTokenIdFromRequest(crypto: Crypto, repo: UserRepository, user: User)
    requires user.id == ZeroId
    requires repo.login(user).Ok? && repo.login(user).value.id != ZeroId
    ensures forall c :: c in Login8(crypto, repo, user).calls && c.TokenCall? ==>
      c.id == ZeroId && c.id != repo.login(user).value.id
    ensures forall c :: c in Login7(crypto, repo, user).calls && c.TokenCall? ==>
      c.id == ZeroId && c.id != repo.login(user).value.id
  {
  }

  /** The intended login mints exactly one token, for the stored account, and its claims do not depend on
      the request beyond the credentials the repository checks. */
  lemma LoginIntendedUsesStoredAccount(crypto: Crypto, repo: UserRepository, user: User, other: User)
    requires repo.login(user).Ok? && repo.login(other) == repo.login(user)
    ensures LoginIntended(crypto, repo, user).result == LoginIntended(crypto, repo, other).result
    ensures forall c :: c in LoginIntended(crypto, repo, user).calls && c.TokenCall? ==>
      var stored := repo.login(user).value;
      c == TokenCall(stored.id, stored.email, stored.role)
  {
  }
}

=== FILE: word_frequency.dfy ===
/** `frequency` of task2: counts the maximal runs of letters and digits of a string, lower-cased.

    The string is modelled as its sequence of code points (what `for i, r := range s` visits); the
    classification `unicode.IsLetter(r) || unicode.IsDigit(r)` is the parameter `isAlnum` and
    `unicode.ToLower` is `lower`. */
module WordFrequency {
  import Sets
  import Seqs

  /** Where the run of letters and digits starting at `lo` ends, looking no further than `hi`. */
  function RunEnd(s: string, lo: int, hi: int, isAlnum: char -> bool): (k: int)
    requires 0 <= lo <= hi <= |s|
    ensures lo <= k <= hi
    ensures forall m :: lo <= m < k ==> isAlnum(s[m])
    ensures k < hi ==> !isAlnum(s[k])
    decreases hi - lo
  {
    if lo == hi || !isAlnum(s[lo]) then lo else RunEnd(s, lo + 1, hi, isAlnum)
  }

  /** The maximal runs of letters and digits of `s[lo..hi]`, left to right. */
  function RunsIn(s: string, lo: int, hi: int, isAlnum: char -> bool): (rs: seq<string>)
    requires 0 <= lo <= hi <= |s|
    ensures forall k :: 0 <= k < |rs| ==> rs[k] != []
    decreases hi - lo
  {
    if lo == hi then []
    else if !isAlnum(s[lo]) then RunsIn(s, lo + 1, hi, isAlnum)
    else
      var k := RunEnd(s, lo, hi, isAlnum);
      [s[lo..k]] + RunsIn(s, k, hi, isAlnum)
  }

  /** The maximal runs of letters and digits of the whole string. */
  function Runs(s: string, isAlnum: char -> bool): seq<string> {
    RunsIn(s, 0, |s|, isAlnum)
  }

  /** `strings.ToLower` on a run: code point by code point. */
  function LowerWord(w: string, lower: char -> char): (r: string)
    ensures |r| == |w| && forall k :: 0 <= k < |w| ==> r[k] == lower(w[k])
  {
    seq(|w|, k requires 0 <= k < |w| => lower(w[k]))
  }

  function LowerAll(ws: seq<string>, lower: char -> char): (r: seq<string>)
    ensures |r| == |ws| && forall k :: 0 <= k < |ws| ==> r[k] == LowerWord(ws[k], lower)
  {
    if ws == [] then [] else LowerAll(ws[..|ws| - 1], lower) + [LowerWord(ws[|ws| - 1], lower)]
  }

  /** The words the counter has to tally: the runs of `s`, lowered. */
  function Words(s: string, isAlnum: char -> bool, lower: char -> char): seq<string> {
    LowerAll(Runs(s, isAlnum), lower)
  }

  /** `counts` holds exactly the words of `words`, each with its number of occurrences. */
  ghost predicate Tallies(counts: map<string, int>, words: seq<string>) {
    forall w :: (w in counts <==> w in multiset(words)) && (w in counts ==> counts[w] == multiset(words)[w])
  }

  /** `wordmap[w]++` on a Go map: a missing key reads as 0. */
  function Bump(counts: map<string, int>, w: string): (r: map<string, int>)
    ensures r.Keys == counts.Keys + {w}
    ensures r[w] == (if w in counts then counts[w] else 0) + 1
  {
    counts[w := if w in counts then counts[w] + 1 else 1]
  }

  lemma TalliesBump(counts: map<string, int>, words: seq<string>, w: string)
    requires Tallies(counts, words)
    ensures Tallies(Bump(counts, w), words + [w])
  {
    assert multiset(words + [w]) == multiset(words) + multiset{w};
  }

  /** The map the counting loop builds from `words`: one `Bump` per word, left to right. */
  function Count(words: seq<string>): map<string, int> {
    if words == [] then map[] else Bump(Count(words[..|words| - 1]), words[|words| - 1])
  }

  /** Bumping word by word tallies the words. */
  lemma {:induction false} CountTallies(words: seq<string>)
    ensures Tallies(Count(words), words)
  {
    if words != [] {
      var init := words[..|words| - 1];
      CountTallies(init);
      TalliesBump(Count(init), init, words[|words| - 1]);
      assert init + [words[|words| - 1]] == words;
    }
  }

  /** Counts every maximal run of letters and digits of `s`, lower-cased; a run that ends the string is
      counted too. The result tallies exactly the lowered runs. */
  method Frequency(s: string, isAlnum: char -> bool, lower: char -> char) returns (counts: map<string, int>)
    ensures counts == Count(Words(s, isAlnum, lower))
    ensures Tallies(counts, Words(s, isAlnum, lower))
  {
    var word := false;
    var start := 0;
    counts := map[];
    ghost var done: seq<string> := [];
    for i := 0 to |s|
      invariant 0 <= start <= i
      invariant !word ==> done == RunsIn(s, 0, i, isAlnum) && (i == 0 || !isAlnum(s[i - 1]))
      invariant word ==> start < i && done == RunsIn(s, 0, start, isAlnum) && (start == 0 || !isAlnum(s[start - 1]))
      invariant word ==> forall m :: start <= m < i ==> isAlnum(s[m])
      invariant counts == Count(LowerAll(done, lower))
    {
      if isAlnum(s[i]) {
        if !word {
          word := true;
          start := i;
        }
      } else if word {
        SeparatorClosesRun(s, start, i, isAlnum);
        var w := LowerWord(s[start..i], lower);
        CountOneMore(counts, done, s[start..i], lower);
        counts := Bump(counts, w);
        done := done + [s[start..i]];
        word := false;
      } else {
        SeparatorAddsNoRun(s, i, isAlnum);
      }
    }
    if word {
      var w := LowerWord(s[start..], lower);
      CountOneMore(counts, done, s[start..], lower);
      counts := Bump(counts, w);
      TrailingRun(s, start, isAlnum);
    }
    CountTallies(Words(s, isAlnum, lower));
  }

  /** Counting the lowered form of one more run is counting the lowered runs seen so far and that run. */
  lemma CountOneMore(counts: map<string, int>, done: seq<string>, run: string, lower: char -> char)
    requires counts == Count(LowerAll(done, lower))
    ensures Bump(counts, LowerWord(run, lower)) == Count(LowerAll(done + [run], lower))
  {
    LowerAllSnoc(done, run, lower);
    Seqs.Halves(LowerAll(done, lower), [LowerWord(run, lower)]);
  }

  lemma LowerAllSnoc(ws: seq<string>, x: string, lower: char -> char)
    ensures LowerAll(ws + [x], lower) == LowerAll(ws, lower) + [LowerWord(x, lower)]
  {
    Seqs.Halves(ws, [x]);
  }

  /** The end of a run is the unique `k` with letters before it and a separator (or `hi`) at it. */
  lemma {:induction false} RunEndUnique(s: string, lo: int, hi: int, isAlnum: char -> bool, k: int)
    requires 0 <= lo <= k <= hi <= |s|
    requires forall m :: lo <= m < k ==> isAlnum(s[m])
    requires k < hi ==> !isAlnum(s[k])
    ensures RunEnd(s, lo, hi, isAlnum) == k
    decreases k - lo
  {
    if lo < k {
      RunEndUnique(s, lo + 1, hi, isAlnum, k);
    }
  }

  /** Runs never straddle a separator: cutting just after one (or at the start) splits the runs. */
  lemma {:induction false} RunsSplit(s: string, lo: int, mid: int, hi: int, isAlnum: char -> bool)
    requires 0 <= lo <= mid <= hi <= |s|
    requires mid == lo || !isAlnum(s[mid - 1])
    ensures RunsIn(s, lo, hi, isAlnum) == RunsIn(s, lo, mid, isAlnum) + RunsIn(s, mid, hi, isAlnum)
    decreases mid - lo
  {
    if lo == mid {
      Seqs.AppendEmpty(RunsIn(s, mid, hi, isAlnum));
    } else if !isAlnum(s[lo]) {
      RunsSplit(s, lo + 1, mid, hi, isAlnum);
    } else {
      var k := RunEnd(s, lo, mid, isAlnum);
      RunEndUnique(s, lo, hi, isAlnum, k);
      RunsSplit(s, k, mid, hi, isAlnum);
      Seqs.AppendAssoc([s[lo..k]], RunsIn(s, k, mid, isAlnum), RunsIn(s, mid, hi, isAlnum));
    }
  }

  /** A stretch of letters and digits from `lo` to `hi` is one run. */
  lemma WholeRun(s: string, lo: int, hi: int, isAlnum: char -> bool)
    requires 0 <= lo < hi <= |s|
    requires forall m :: lo <= m < hi ==> isAlnum(s[m])
    ensures RunsIn(s, lo, hi, isAlnum) == [s[lo..hi]]
  {
    RunEndUnique(s, lo, hi, isAlnum, hi);
    Seqs.AppendEmpty([s[lo..hi]]);
  }

  /** Reading a separator while no run is open adds no run. */
  lemma SeparatorAddsNoRun(s: string, i: int, isAlnum: char -> bool)
    requires 0 <= i < |s| && !isAlnum(s[i]) && (i == 0 || !isAlnum(s[i - 1]))
    ensures RunsIn(s, 0, i + 1, isAlnum) == RunsIn(s, 0, i, isAlnum)
  {
    RunsSplit(s, 0, i, i + 1, isAlnum);
    Seqs.AppendEmpty(RunsIn(s, 0, i, isAlnum));
  }

  /** Reading a separator closes the open run `s[start..i]`. */
  lemma SeparatorClosesRun(s: string, start: int, i: int, isAlnum: char -> bool)
    requires 0 <= start < i < |s| && !isAlnum(s[i]) && (start == 0 || !isAlnum(s[start - 1]))
    requires forall m :: start <= m < i ==> isAlnum(s[m])
    ensures RunsIn(s, 0, i + 1, isAlnum) == RunsIn(s, 0, start, isAlnum) + [s[start..i]]
  {
    RunsSplit(s, 0, start, i + 1, isAlnum);
    RunEndUnique(s, start, i + 1, isAlnum, i);
    assert RunsIn(s, i, i + 1, isAlnum) == [];
    Seqs.AppendEmpty([s[start..i]]);
  }

  /** A run that reaches the end of the string is the last run: it is counted. */
  lemma TrailingRun(s: string, a: int, isAlnum: char -> bool)
    requires 0 <= a < |s| && (a == 0 || !isAlnum(s[a - 1]))
    requires forall m :: a <= m < |s| ==> isAlnum(s[m])
    ensures Runs(s, isAlnum) == RunsIn(s, 0, a, isAlnum) + [s[a..]]
  {
    RunsSplit(s, 0, a, |s|, isAlnum);
    WholeRun(s, a, |s|, isAlnum);
    Seqs.Whole(s);
  }

  /** `s[a..b]` is a maximal run of `s[lo..hi]`: letters and digits only, with a separator or an end of
      the range on either side. */
  ghost predicate MaximalIn(s: string, lo: int, hi: int, isAlnum: char -> bool, a: int, b: int) {
    0 <= lo <= a < b <= hi <= |s| &&
    (forall m :: a <= m < b ==> isAlnum(s[m])) &&
    (a == lo || !isAlnum(s[a - 1])) &&
    (b == hi || !isAlnum(s[b]))
  }

  /** A maximal run of the whole string. */
  ghost predicate MaximalRun(s: string, isAlnum: char -> bool, a: int, b: int) {
    MaximalIn(s, 0, |s|, isAlnum, a, b)
  }

  /** Where the runs of `s[lo..hi]` start, left to right: strictly increasing positions inside the range. */
  ghost function RunStarts(s: string, lo: int, hi: int, isAlnum: char -> bool): (ps: seq<int>)
    requires 0 <= lo <= hi <= |s|
    ensures forall k :: 0 <= k < |ps| ==> lo <= ps[k] < hi
    ensures forall k, l :: 0 <= k < l < |ps| ==> ps[k] < ps[l]
    decreases hi - lo
  {
    if lo == hi then []
    else if !isAlnum(s[lo]) then RunStarts(s, lo + 1, hi, isAlnum)
    else [lo] + RunStarts(s, RunEnd(s, lo, hi, isAlnum), hi, isAlnum)
  }

  /** There is one start per listed run. */
  lemma {:induction false} RunStartsCount(s: string, lo: int, hi: int, isAlnum: char -> bool)
    requires 0 <= lo <= hi <= |s|
    ensures |RunStarts(s, lo, hi, isAlnum)| == |RunsIn(s, lo, hi, isAlnum)|
    decreases hi - lo
  {
    if lo < hi {
      if !isAlnum(s[lo]) {
        RunStartsCount(s, lo + 1, hi, isAlnum);
      } else {
        RunStartsCount(s, RunEnd(s, lo, hi, isAlnum), hi, isAlnum);
      }
    }
  }

  /** The `k`-th listed run starts at the `k`-th start, ends where that run ends, and is maximal. */
  lemma {:induction false} ListedRunAt(s: string, lo: int, hi: int, isAlnum: char -> bool, k: int)
    requires 0 <= lo <= hi <= |s| && 0 <= k < |RunStarts(s, lo, hi, isAlnum)|
    ensures k < |RunsIn(s, lo, hi, isAlnum)|
    ensures var a := RunStarts(s, lo, hi, isAlnum)[k];
            && MaximalIn(s, lo, hi, isAlnum, a, RunEnd(s, a, hi, isAlnum))
            && RunsIn(s, lo, hi, isAlnum)[k] == s[a..RunEnd(s, a, hi, isAlnum)]
    decreases hi - lo
  {
    RunStartsCount(s, lo, hi, isAlnum);
    if !isAlnum(s[lo]) {
      ListedRunAt(s, lo + 1, hi, isAlnum, k);
    } else if k > 0 {
      var e := RunEnd(s, lo, hi, isAlnum);
      ListedRunAt(s, e, hi, isAlnum, k - 1);
      var a := RunStarts(s, e, hi, isAlnum)[k - 1];
      assert RunStarts(s, lo, hi, isAlnum)[k] == a;
      assert RunsIn(s, lo, hi, isAlnum)[k] == RunsIn(s, e, hi, isAlnum)[k - 1];
      MaximalInWider(s, lo, e, hi, isAlnum, a, RunEnd(s, a, hi, isAlnum));
    }
  }

  /** A maximal run of the range after a separator (or after the end of the first run) is a maximal run of
      the wider range too. */
  lemma MaximalInWider(s: string, lo: int, e: int, hi: int, isAlnum: char -> bool, a: int, b: int)
    requires 0 <= lo <= e <= hi <= |s| && (e == hi || !isAlnum(s[e]))
    requires MaximalIn(s, e, hi, isAlnum, a, b)
    ensures MaximalIn(s, lo, hi, isAlnum, a, b)
  {
    assert isAlnum(s[a]);
  }

  /** Conversely, every maximal run of `s[lo..hi]` starts at one of the listed starts. */
  lemma {:induction false} MaximalRunsAreListed(s: string, lo: int, hi: int, isAlnum: char -> bool, a: int, b: int)
    requires MaximalIn(s, lo, hi, isAlnum, a, b)
    ensures a in RunStarts(s, lo, hi, isAlnum) && b == RunEnd(s, a, hi, isAlnum)
    decreases hi - lo
  {
    RunEndUnique(s, a, hi, isAlnum, b);
    if !isAlnum(s[lo]) {
      MaximalRunsAreListed(s, lo + 1, hi, isAlnum, a, b);
    } else if a > lo {
      var e := RunEnd(s, lo, hi, isAlnum);
      MaximalRunsAreListed(s, e, hi, isAlnum, a, b);
    }
  }

  /** The maximal runs of the whole string, by their bounds. */
  ghost function MaximalRuns(s: string, isAlnum: char -> bool): set<(int, int)> {
    set a, b | 0 <= a < b <= |s| && MaximalRun(s, isAlnum, a, b) :: (a, b)
  }

  /** There are as many listed runs, and as many words to count, as there are maximal runs: each maximal
      run is listed exactly once. */
  lemma RunsCountMaximalRuns(s: string, isAlnum: char -> bool, lower: char -> char)
    ensures |Runs(s, isAlnum)| == |MaximalRuns(s, isAlnum)|
    ensures |multiset(Words(s, isAlnum, lower))| == |MaximalRuns(s, isAlnum)|
  {
    var ps := RunStarts(s, 0, |s|, isAlnum);
    RunStartsCount(s, 0, |s|, isAlnum);
    var bounds := seq(|ps|, k requires 0 <= k < |ps| => (ps[k], RunEnd(s, ps[k], |s|, isAlnum)));
    Sets.DistinctSize(bounds);
    forall ab | ab in bounds
      ensures ab in MaximalRuns(s, isAlnum)
    {
      var k :| 0 <= k < |bounds| && bounds[k] == ab;
      ListedRunAt(s, 0, |s|, isAlnum, k);
    }
    forall ab | ab in MaximalRuns(s, isAlnum)
      ensures ab in bounds
    {
      MaximalRunsAreListed(s, 0, |s|, isAlnum, ab.0, ab.1);
      var k :| 0 <= k < |ps| && ps[k] == ab.0;
      assert bounds[k] == ab;
    }
    assert (set x | x in bounds) == MaximalRuns(s, isAlnum);
  }

  /** Every key the counter produces is a maximal run of `s`, lower-cased. */
  lemma KeysAreMaximalRuns(s: string, isAlnum: char -> bool, lower: char -> char, counts: map<string, int>, w: string)
    requires Tallies(counts, Words(s, isAlnum, lower))
    requires w in counts
    ensures exists a, b :: MaximalRun(s, isAlnum, a, b) && w == LowerWord(s[a..b], lower)
  {
    var words := Words(s, isAlnum, lower);
    assert w in words;
    var k :| 0 <= k < |words| && words[k] == w;
    RunStartsCount(s, 0, |s|, isAlnum);
    ListedRunAt(s, 0, |s|, isAlnum, k);
    var a := RunStarts(s, 0, |s|, isAlnum)[k];
    var b := RunEnd(s, a, |s|, isAlnum);
    assert MaximalRun(s, isAlnum, a, b) && w == LowerWord(s[a..b], lower);
  }

  /** A range has no runs exactly when it has no letter or digit. */
  lemma {:induction false} NoRunsWithoutAlnum(s: string, lo: int, hi: int, isAlnum: char -> bool)
    requires 0 <= lo <= hi <= |s|
    ensures RunsIn(s, lo, hi, isAlnum) == [] <==> forall m :: lo <= m < hi ==> !isAlnum(s[m])
    decreases hi - lo
  {
    if lo < hi && !isAlnum(s[lo]) {
      NoRunsWithoutAlnum(s, lo + 1, hi, isAlnum);
    }
  }

  /** An empty string, or one made only of separators, yields an empty map. */
  lemma NoWordsNoCounts(s: string, isAlnum: char -> bool, lower: char -> char, counts: map<string, int>)
    requires Tallies(counts, Words(s, isAlnum, lower))
    requires forall m :: 0 <= m < |s| ==> !isAlnum(s[m])
    ensures counts == map[]
  {
    NoRunsWithoutAlnum(s, 0, |s|, isAlnum);
    if counts != map[] {
      var w := Sets.ElementOf(counts.Keys);
      assert false;
    }
  }

  lemma LowerAllPrepend(w: string, ws: seq<string>, lower: char -> char)
    ensures LowerAll([w] + ws, lower) == [LowerWord(w, lower)] + LowerAll(ws, lower)
  {
    var l, r := LowerAll([w] + ws, lower), [LowerWord(w, lower)] + LowerAll(ws, lower);
    forall k | 0 <= k < |l|
      ensures l[k] == r[k]
    {
      if k > 0 {
        assert ([w] + ws)[k] == ws[k - 1];
      }
    }
  }

  /** Runs ignore case: two strings that agree position by position on which code points are letters or
      digits and on their lower-case forms have the same lowered runs over any range. */
  lemma {:induction false} LoweredRunsAgree(s: string, t: string, lo: int, hi: int, isAlnum: char -> bool, lower: char -> char)
    requires |s| == |t| && 0 <= lo <= hi <= |s|
    requires forall m :: 0 <= m < |s| ==> isAlnum(s[m]) == isAlnum(t[m]) && lower(s[m]) == lower(t[m])
    ensures LowerAll(RunsIn(s, lo, hi, isAlnum), lower) == LowerAll(RunsIn(t, lo, hi, isAlnum), lower)
    decreases hi - lo
  {
    if lo < hi {
      if !isAlnum(s[lo]) {
        LoweredRunsAgree(s, t, lo + 1, hi, isAlnum, lower);
      } else {
        var k := RunEnd(s, lo, hi, isAlnum);
        RunEndUnique(t, lo, hi, isAlnum, k);
        LoweredRunsAgree(s, t, k, hi, isAlnum, lower);
        LowerAllPrepend(s[lo..k], RunsIn(s, k, hi, isAlnum), lower);
        LowerAllPrepend(t[lo..k], RunsIn(t, k, hi, isAlnum), lower);
        LoweredWordsAgree(s, t, lo, k, lower);
      }
    }
  }

  lemma LoweredWordsAgree(s: string, t: string, lo: int, hi: int, lower: char -> char)
    requires |s| == |t| && 0 <= lo <= hi <= |s|
    requires forall m :: 0 <= m < |s| ==> lower(s[m]) == lower(t[m])
    ensures LowerWord(s[lo..hi], lower) == LowerWord(t[lo..hi], lower)
  {
    var l, r := LowerWord(s[lo..hi], lower), LowerWord(t[lo..hi], lower);
    forall m | 0 <= m < hi - lo
      ensures l[m] == r[m]
    {
      assert s[lo..hi][m] == s[lo + m] && t[lo..hi][m] == t[lo + m];
    }
  }

  /** Counting ignores case: such strings produce the same words, hence the same counts. */
  lemma CaseInsensitive(s: string, t: string, isAlnum: char -> bool, lower: char -> char)
    requires |s| == |t|
    requires forall m :: 0 <= m < |s| ==> isAlnum(s[m]) == isAlnum(t[m]) && lower(s[m]) == lower(t[m])
    ensures Words(s, isAlnum, lower) == Words(t, isAlnum, lower)
  {
    LoweredRunsAgree(s, t, 0, |s|, isAlnum, lower);
  }
}
